=== FILE: README.md ===
# backupwordservice — a Dafny model of the backup job

The backup service runs one scheduled job, `BackupJob`. The job walks a list
of configured backup descriptors (`BackupInfo`: source, date sub-folder
template, filename conditions, destination folder, days to keep). For each
descriptor whose source exists it does four things in order:

1. it deletes `destination/<yyyy-MM-dd>`;
2. it compiles the conditions into a list of tokens;
3. it copies the source into that dated folder:
   - a single file, if the filename passes the filter;
   - a directory, after resolving the date template: the whole structure is
     mirrored and only the leaf files are filtered;
4. it prunes every directory directly under the destination that is more than
   `keepDays` whole days old.

This project models that job over an immutable filesystem tree and proves
properties of it. The modules follow the job's pieces:

| file | module | models |
|---|---|---|
| `outcomes.dfy` | `Outcomes` | `Option`, `Result`, and the faults that can end a run |
| `text.dfy` | `Text` | ordinal `Contains`, `Split` on one character, `Replace(">>", "-")`, `IsNullOrWhiteSpace` |
| `filetree.dfy` | `FileTree` | the tree (`File(bytes)` / `Dir(created, children)`), path lookup, and `Directory.CreateDirectory`, `Directory.Delete(path, true)` and `CopyTo`-style updates |
| `conditions.dfy` | `Conditions` | `CreateBackupConditions` and the `Aggregate` filename filter |
| `source_resolver.dfy` | `SourceResolver` | `CombineSourceFolder` |
| `copy_engine.dfy` | `CopyEngine` | `CopyFile` and `CopyFolder` |
| `retention.dfy` | `Retention` | `DeleteExpiredBackupFiles` |
| `backup_job.dfy` | `BackupJob` | `BackupInfo`, and `IJob.Execute` as a fold over the descriptors |

Modelling choices:

- **Clock and date formatting.** The clock readings are inputs (`Clock`):
  - `today` is read once per run. It names the dated folder, resolves the
    template, stamps the directories the run creates, and drives pruning.
  - A second reading resolves the condition tokens.
  `DateTime.ToString(format)` is a function-valued parameter
  `fmt: (string, Instant) -> string`. Nothing is assumed about it except in
  the lemmas that say what it returns.
- **Time.** Instants are .NET ticks. A directory's age is
  `TimeSpan.Days` of the difference, so it truncates toward zero
  (`FileTree.WholeDays`).
- **Paths.** A path is a sequence of names below the root.
  `Path.Combine(p, "")` is `p`, so an empty piece adds no segment.
  A missing (null) `SubFolder` or `Conditions` is the empty string.
- **Faults.** Nothing in the job catches an exception, so a fault ends the
  run. `Execute` returns `Aborted` with the filesystem as it stood once the
  dated folder was deleted. There are four faults:
  - `MissingFormat`: a "today" token without a `:` makes the index out of
    range;
  - `PathBlocked`: a file stands where a directory is needed, or a directory
    stands where a file is copied;
  - `SourceNotFound`: deleting the dated folder removed the source itself;
  - `PathTooLong`: a folder is copied into a target inside itself. The
    program lists the live source after creating the target, so it finds its
    own output at every level and nests deeper until the path is too long.

Four details of the code are easy to misread, and the model follows the code in each:

- A token is dynamic when it contains the substring `today` anywhere, not
  only `today:` (BackupJob.cs:128).
- The format used for a dynamic token is `Split(':')[1]`. That is the text
  between the first and second `:`, not everything after the first `:`
  (BackupJob.cs:130). So `today:HH:mm` formats with `HH`.
- Tokens read their own `DateTime.Now` (BackupJob.cs:130). This is separate
  from the `today` used for folders and pruning (BackupJob.cs:25).
- Pruning runs after a single-file copy as well as after a directory copy
  (BackupJob.cs:54-72).

## Model

| member | source | states |
|---|---|---|
| BackupJob.RunBackup | BackupJob.cs:29-73 | A descriptor whose source is neither a file nor a directory leaves the filesystem exactly as it was. An aborted descriptor leaves no directory at the dated path and changes nothing outside it. A completed one leaves no expired directory under the destination, for file and directory sources alike. `RunBackupKeepsUnexpired` shows that every other entry there is kept. |
| BackupJob.Execute | BackupJob.cs:23-76 | When no descriptor's source exists, the run changes nothing. No path outside every destination root ever changes. |
| BackupJob.CopyPhase | BackupJob.cs:53-66 | A source that has vanished by the time its attributes are read is a `SourceNotFound` fault. A file source leaves today's folder as a directory. A directory source whose resolved folder is missing changes nothing. One that contains today's folder never completes. Otherwise today's folder holds the merge of the resolved folder into it. |
| BackupJob.CopyPhaseFrame | BackupJob.cs:53-66 | The copy step changes nothing outside today's folder. |
| BackupJob.RunBackupKeepsUnexpired | BackupJob.cs:41-72 | Apart from today's folder, a completed run deletes exactly the expired directories directly under the destination. Every other entry there is kept unchanged. |
| BackupJob.NestedTargetAborts | BackupJob.cs:160-192 | Backing a folder up into a dated folder inside itself never completes. |
| BackupJob.NestedTargetExample | BackupJob.cs:62-65 | `/d` holding one file, backed up into `/d` with today's folder named `D`, ends with `PathTooLong` after the dated folder was cleared. |
| BackupJob.ExecuteAppend | BackupJob.cs:23-76 | Running two lists of descriptors equals running the first and then, unless it aborted, the second from the resulting filesystem. |
| BackupJob.AbortStopsRun | BackupJob.cs:29-74 | Once a descriptor faults, no later descriptor runs and the outcome is unchanged. |
| BackupJob.MissingSourceSkipped | BackupJob.cs:34-39 | A missing source is skipped entirely: no deletion, no copy, no pruning. The run continues with the next descriptor. |
| BackupJob.MissingFormatAborts | BackupJob.cs:41-51 | A condition that fails to compile aborts the run with a `MissingFormat` fault, after the dated folder has already been deleted. |
| BackupJob.FileSourceIgnoresTemplate | BackupJob.cs:53-66 | For a single-file source, the sub-folder template has no effect on the run. |
| BackupJob.RunBackupFrame | BackupJob.cs:41-72 | A run changes nothing outside the destination root. |
| BackupJob.ClearDatedFolderFacts | BackupJob.cs:43-47 | Deleting today's folder leaves no directory there and changes nothing outside it. A file at that path, or nothing there, leaves the tree unchanged. |
| BackupJob.DatedFolderReplaced | BackupJob.cs:41-72 | After a completed run in which no file stands at today's path, today's folder holds exactly this run's copy whatever directory was there before (replace, not merge). For a file source that is a new directory holding the accepted file, or empty when the file is rejected. For a directory source it is the filtered mirror of the resolved directory, or nothing when that directory is missing. It is also nothing when a negative `keepDays` prunes it. The destination root exists afterwards whenever there was something to copy. |
| BackupJob.RerunSameDay | BackupJob.cs:41-72 | After a completed first run in which no file stands at today's path, and when source and destination are disjoint, running a descriptor again at a later moment that names the same dated folder, resolves the template to the same folder and compiles the same tokens completes. Today's folder exists after the rerun iff it existed after the first run, has the same contents up to directory creation times, and is stamped with the rerun's time. At the same instant the two folders are equal. |
| Conditions.Compile | BackupJob.cs:116-134 | A blank condition compiles to no tokens. Otherwise compilation succeeds iff every comma-separated token resolves. The result keeps the token count and order: plain tokens are kept, and a "today" token becomes the formatted date. A failure names one of the tokens. |
| Conditions.ResolveToken | BackupJob.cs:128-131 | A token fails iff it contains "today" and no ':'. A token without "today" is kept as it is. A "today" token with a ':' becomes the clock reading formatted with `Split(':')[1]`. |
| Conditions.ResolveTokens | BackupJob.cs:126-132 | All tokens resolve iff each does. Length and positions are kept, and a failure names the failing token. |
| Conditions.ResolveTokensOkIff | BackupJob.cs:126-132 | Every resolved "today" token equals `fmt` of the second ':'-piece. Success is equivalent to every "today" token having a ':'. |
| Conditions.FormatOf | BackupJob.cs:130 | A format exists iff the token has a ':'. The format has no ':'. It starts right after the first ':' and runs to the next ':' or to the end. |
| Conditions.FormatOfUnique | BackupJob.cs:130 | Any colon-free piece that starts right after the first ':' and ends at a ':' or at the end is the format: the piece is unique. |
| Conditions.AggregateIsConjunction | BackupJob.cs:153 | The left fold with `&&` is its seed AND "the name contains every token". |
| Conditions.AcceptsIffContainsAll | BackupJob.cs:153 | A filename passes iff it contains every token as a substring. |
| Conditions.MissingTokenRejects | BackupJob.cs:153 | A name that lacks any one token is rejected. |
| Conditions.TwoTokens | BackupJob.cs:153 | With two tokens, a name passes iff it contains both. |
| Conditions.BlankAcceptsEverything | BackupJob.cs:118-121 | An empty or all-whitespace condition accepts every filename. |
| Conditions.EmptyTokenIsNeutral | BackupJob.cs:153 | An empty token (such as the one from a trailing comma) never rejects a name. |
| Text.ContainsIffOccurs | BackupJob.cs:153 | The recursive ordinal `Contains` agrees with "occurs at some position". |
| Text.ContainsInfix | BackupJob.cs:153 | A string surrounded by any text is still contained. |
| Text.EmptyIsContained | BackupJob.cs:153 | Every string contains the empty string. |
| Text.Split | BackupJob.cs:107 | The result has at least one piece, no piece contains the separator, and there is exactly one piece iff the separator is absent. |
| Text.JoinSplit | BackupJob.cs:123 | Joining the pieces of a split with the separator gives back the original string. |
| Text.SplitJoin | BackupJob.cs:123 | Splitting a join of separator-free pieces gives back the pieces. |
| Text.ReplaceChevrons | BackupJob.cs:104 | The result has no ">>". Its first character is '-' when the text starts with ">>", and the input's first character otherwise. |
| Text.ReplaceChevronsFirst | BackupJob.cs:104 | The first ">>" becomes '-'. The text before it is kept, and the scan resumes after it. Together with `ReplaceChevronsIdentity` this fixes the result for every template. |
| Text.ReplaceChevronsIdentity | BackupJob.cs:104 | A template without ">>" is left unchanged. |
| Text.ReplaceChevronsLength | BackupJob.cs:104 | The result is never longer, and it is strictly shorter iff the template contained ">>". |
| SourceResolver.CombineSourceFolder | BackupJob.cs:99-113 | A blank template gives the path unchanged. Otherwise the result extends the path by exactly the non-empty '-'-pieces of the formatted template, in order. Each added segment is non-empty and has no '-'. |
| SourceResolver.AppendAll | BackupJob.cs:107-110 | Combining piece by piece appends exactly the non-empty pieces, in order. |
| SourceResolver.NonEmptyMembers | BackupJob.cs:109 | The segments kept are exactly the non-empty pieces. |
| SourceResolver.ResolvedSegmentsRoundTrip | BackupJob.cs:104-110 | When no piece is empty, joining the added segments with '-' gives back the formatted template. |
| SourceResolver.DayTemplateExample | BackupJob.cs:99-113 | The template `yyyy>>MM>>dd`, formatted as `2024-01-10`, resolves to `path/2024/01/10`. |
| CopyEngine.Merge | BackupJob.cs:170-191 | The merged target keeps its creation time. Its names are the old names plus every source subdirectory and every accepted file. Accepted files are copied, source subdirectories are directories, and every other entry is kept. |
| CopyEngine.MergeMirrorsDirs | BackupJob.cs:183-191 | Every source directory, at every depth, has a directory counterpart, even when all of its files are filtered out. |
| CopyEngine.MergeCopiesFiles | BackupJob.cs:176-180 | Every accepted file, at every depth, is copied with the source's bytes and overwrites a file of the same name. |
| CopyEngine.MergeIntoEmpty | BackupJob.cs:170-191 | Copied into a fresh folder, a path is a directory iff it is one in the source. It is a file iff the source has a file there whose name passes the filter, and then it is that file. |
| CopyEngine.MergeShape | BackupJob.cs:170-191 | Copying the same source into targets of the same shape at two different moments gives trees that differ only in the creation times of their directories. |
| CopyEngine.MergeIdempotent | BackupJob.cs:170-191 | Copying the same source into the result again changes nothing. |
| CopyEngine.EmptyTargetNeverCollides | BackupJob.cs:176-191 | Copying into a fresh folder never meets an entry of the wrong kind. |
| CopyEngine.CopyFile | BackupJob.cs:137-158 | A missing source, or a directory at the source path, changes nothing. Otherwise the copy succeeds iff no file blocks the target path and no directory blocks an accepted file. On success the target directory exists even when the file is rejected. An accepted file is copied over any file of the same name, and a rejected one leaves that name untouched. An existing target keeps every other entry. A new target holds only the accepted file. |
| CopyEngine.CopyFolder | BackupJob.cs:160-192 | A missing source, or a file at the source path, changes nothing. Otherwise the copy succeeds iff three things hold: no file blocks the target path, the target does not lie inside the source, and nothing collides. A target inside the source fails with `PathTooLong`, and every other failure is `PathBlocked`. On success the target holds the merge of its old contents with the source. |
| CopyEngine.CopyFileFrame | BackupJob.cs:137-158 | Copying a file changes nothing outside the target folder. |
| CopyEngine.CopyFolderFrame | BackupJob.cs:160-192 | Copying a folder changes nothing outside the target folder. |
| Retention.DeleteExpired | BackupJob.cs:79-96 | A missing destination root means no change. Otherwise the root stays, and a child stays iff it is not a directory older than `keepDays` whole days. Kept children are untouched. |
| Retention.ChildFate | BackupJob.cs:86-94 | An immediate child directory older than `keepDays` is deleted and a younger one is kept unchanged. Files are never touched, and nothing is created. |
| Retention.RetentionThreshold | BackupJob.cs:89-90 | The threshold is strict. A folder `keepDays` days and one tick short of another day old is kept. One exactly `keepDays + 1` days old is deleted. |
| Retention.WholeDaysOfSpan | BackupJob.cs:89 | A day count truncates: any span shorter than `k + 1` days but at least `k` days counts as `k` days. |
| Retention.DeleteExpiredFrame | BackupJob.cs:79-96 | Pruning changes nothing outside the destination root. |
| Retention.DeleteExpiredKeepsAncestors | BackupJob.cs:79-96 | Pruning never deletes a directory above the destination root. |
| Retention.DeleteExpiredIdempotent | BackupJob.cs:79-96 | Pruning twice with the same clock is the same as pruning once. |
| FileTree.EnsureDir | BackupJob.cs:170-173 | Creating a directory succeeds iff no file lies on its path. Afterwards the directory exists. An existing directory is kept as it is, and a new one is empty and stamped with the run date. |
| FileTree.EnsureDirFrame | BackupJob.cs:170-173 | Creating a directory changes nothing outside its path. |
| FileTree.Remove | BackupJob.cs:44-47 | After the recursive delete nothing is at the path, and deleting a missing path changes nothing. |
| FileTree.RemoveFrame | BackupJob.cs:44-47 | The recursive delete changes nothing outside the deleted subtree. |
| FileTree.RemoveOnlyDeletes | BackupJob.cs:44-47 | Whatever exists after the delete, except the directories above it, is exactly what was there before. |
| FileTree.RemoveKeepsAncestor | BackupJob.cs:44-47 | The delete keeps every directory above the deleted one. |
| FileTree.Put | BackupJob.cs:156 | Writing below an existing directory puts the node at that path. Writing under a missing parent changes nothing. |
| FileTree.PutFrame | BackupJob.cs:156 | A write changes nothing outside the written path. |

## Left out

- Logging is not modelled. It is file-append I/O behind `ILogger`, and each log call in the job is a no-op here.
- Quartz scheduling, Windows-service hosting and `[DisallowConcurrentExecution]` are external wiring. A run is modelled as one sequential call.
- Configuration binding (`GetSection("Backups")`) is not modelled. The descriptor list is an input sequence.
- `DateTime.Now` and `DateTime.ToString` are inputs. The .NET custom date format language is not modelled.
- Conditions.Compile: all tokens of one run share one clock reading (`Clock.conditionsNow`). The job reads `DateTime.Now` once per dynamic token, so tokens resolved across midnight could differ. They cannot differ here.
- BackupJob.RunBackup: a fault in the middle of a copy is modelled as abort-before-copy. The files written before the fault are not modelled, because `GetFiles` and `GetDirectories` have no specified order.
- Windows path semantics are not modelled: case-insensitive names, rooted or `..` pieces in `Path.Combine`, separators inside a segment, and file-system tunnelling of creation times. Names are compared exactly.
- The tree has no permissions, read-only attributes, disk space or locked files. Their I/O faults are not modelled.
- A directory's creation time is whatever is stored in the tree. Only directories created by a run are stamped (with `today`). The program stamps a folder when it creates it, a little after reading `today`, so at a cadence of exactly 24 hours its `(today - CreationTime).Days` is one less than the model's `AgeInDays`, and the program keeps each dated folder for one run more than the model does.
- BackupJob.RerunSameDay: a rerun later the same day is covered only when its clock resolves the template and the "today" tokens as the first run did. A format that includes the time of day can resolve them differently, and then the rerun copies another folder or filters by other tokens. Directories are stamped with the run's single `today` reading, while the program records the moment each directory is created.
- A null `DestinationFolder` is not modelled. A destination at the root is, but when the date format also gives an empty name the dated path is the root itself: `Directory.Delete` of the root has no counterpart in the tree, so the model keeps it.
- BackupJob.DatedFolderReplaced assumes the source lies outside today's folder, and BackupJob.RerunSameDay that it lies outside the destination. A folder copied into itself is covered only by BackupJob.NestedTargetAborts.
- CopyEngine.CopyFolder: a target inside the source always ends the run, but the program could meet a collision (`IOException`) or exhaust its stack before the path grows too long. The model always reports `PathTooLong`. The files written before the end are not modelled.
- CopyEngine.CopyFolder: a target equal to or above the source is copied from a snapshot of the source. The program lists the live tree, which can already hold part of the copy. The job never copies that way, because deleting today's folder removes any source below it.
- An invalid date format is not modelled. In a "today" token (`today:q`, or an unterminated quote as in `today:'x`) or in the sub-folder template, `DateTime.ToString` throws a `FormatException` that ends the run. Here `fmt` always returns, so such a descriptor completes.
- A null or empty `Source` is not modelled. The program skips it, because `File.Exists` and `Directory.Exists` are false for it. The model's empty path is the root, which always exists, so such a descriptor runs.

=== FILE: backup_job.dfy ===
/**
 The job orchestrator (`IJob.Execute`): a left fold over the configured
 backup descriptors. For each descriptor whose source exists, the dated
 folder `destination/<yyyy-MM-dd>` is deleted, the conditions are compiled,
 the source is copied into the dated folder (a directory source through its
 date template), and expired folders under the destination are pruned. A
 missing source skips the descriptor entirely; a fault ends the run, with
 the work already done left in place.
 */
module BackupJob {
  import opened Outcomes
  import opened FileTree
  import opened Conditions
  import opened SourceResolver
  import opened CopyEngine
  import opened Retention

  /** One configured backup unit (`BackupInfo`). A missing optional value is
      the empty string. */
  datatype BackupInfo = BackupInfo(
    source: Path,
    subFolder: string,
    conditions: string,
    destinationFolder: Path,
    keepDays: int)

  /** The clock readings of one run: `today`, read once at the start and used
      for the dated folder, the date template, the creation time of the
      directories the run makes and pruning; and the separate reading taken
      when condition tokens are resolved. */
  datatype Clock = Clock(today: Instant, conditionsNow: Instant)

  /** How a run ends: the filesystem it leaves, and the fault that stopped it. */
  datatype Outcome = Completed(fs: Node) | Aborted(fs: Node, fault: Fault)

  const DateFolderFormat: string := "yyyy-MM-dd"

  /** `Path.Combine(destination, today.ToString("yyyy-MM-dd"))`. */
  function DatedFolder(info: BackupInfo, fmt: Formatter, today: Instant): Path {
    Combine(info.destinationFolder, fmt(DateFolderFormat, today))
  }

  /** Delete the dated folder if it is a directory. */
  function ClearDatedFolder(fs: Node, dated: Path): Node {
    if dated != [] && IsDirAt(fs, dated) then Remove(fs, dated) else fs
  }

  /** `FileInfo.Name`: the last segment of a path. */
  function FileName(p: Path): string {
    if p == [] then "" else p[|p| - 1]
  }

  /** The copy step: `File.GetAttributes` decides between the file and the
      directory branch; only the directory branch applies the template. */
  function CopyPhase(fs: Node, info: BackupInfo, tokens: seq<string>, fmt: Formatter, today: Instant): (r: Result<Node>)
    ensures Get(fs, info.source).None? ==> r == Fail(SourceNotFound)
    ensures IsFileAt(fs, info.source) && r.Ok? ==> IsDirAt(r.value, DatedFolder(info, fmt, today))
    ensures var source := CombineSourceFolder(info.source, info.subFolder, fmt, today);
            IsDirAt(fs, info.source) && !IsDirAt(fs, source) ==> r == Ok(fs)
    ensures var source := CombineSourceFolder(info.source, info.subFolder, fmt, today);
            IsDirAt(fs, info.source) && IsDirAt(fs, source) && source < DatedFolder(info, fmt, today) ==> r.Fail?
    ensures var source := CombineSourceFolder(info.source, info.subFolder, fmt, today);
            var dated := DatedFolder(info, fmt, today);
            IsDirAt(fs, info.source) && IsDirAt(fs, source) && r.Ok? ==>
              Get(r.value, dated) == Some(Merge(TargetDir(fs, dated, today), Get(fs, source).value, tokens, today))
  {
    var dated := DatedFolder(info, fmt, today);
    match Get(fs, info.source)
    case None => Fail(SourceNotFound)
    case Some(File(_)) =>
      CopyFile(fs, FileName(info.source), Get(fs, info.source), dated, tokens, today)
    case Some(Dir(_, _)) =>
      var source := CombineSourceFolder(info.source, info.subFolder, fmt, today);
      CopyFolder(fs, source, dated, tokens, today)
  }

  /** The body of the `foreach` for one descriptor. */
  function RunBackup(fs: Node, info: BackupInfo, fmt: Formatter, clock: Clock): (r: Outcome)
    ensures Get(fs, info.source).None? ==> r == Completed(fs)
    ensures r.Aborted? ==>
              var dated := DatedFolder(info, fmt, clock.today);
              && (dated != [] ==> !IsDirAt(r.fs, dated))
              && forall q :: Disjoint(q, dated) ==> Get(r.fs, q) == Get(fs, q)
    ensures r.Completed? && Get(fs, info.source).Some? && IsDirAt(r.fs, info.destinationFolder) ==>
              forall n :: n in Get(r.fs, info.destinationFolder).value.children ==>
                !Expired(Get(r.fs, info.destinationFolder).value.children[n], info.keepDays, clock.today)
  {
    if Get(fs, info.source).None? then Completed(fs)
    else
      var dated := DatedFolder(info, fmt, clock.today);
      var fs1 := ClearDatedFolder(fs, dated);
      ClearDatedFolderFacts(fs, dated);
      match Compile(info.conditions, fmt, clock.conditionsNow)
      case Fail(f) => Aborted(fs1, f)
      case Ok(tokens) =>
        match CopyPhase(fs1, info, tokens, fmt, clock.today)
        case Fail(f) => Aborted(fs1, f)
        case Ok(fs2) =>
          var r := DeleteExpired(fs2, info.destinationFolder, info.keepDays, clock.today);
          assert IsDirAt(r, info.destinationFolder) ==> IsDirAt(fs2, info.destinationFolder);
          Completed(r)
  }

  /** Clearing the dated folder leaves no directory there and touches nothing
      outside it; a file standing at that path, or nothing there, leaves the
      tree as it was. */
  lemma ClearDatedFolderFacts(fs: Node, dated: Path)
    ensures dated != [] ==> !IsDirAt(ClearDatedFolder(fs, dated), dated)
    ensures IsFileAt(fs, dated) || Get(fs, dated).None? ==> ClearDatedFolder(fs, dated) == fs
    ensures forall q :: Disjoint(q, dated) ==> Get(ClearDatedFolder(fs, dated), q) == Get(fs, q)
  {
    if dated != [] && IsDirAt(fs, dated) {
      forall q | Disjoint(q, dated)
        ensures Get(Remove(fs, dated), q) == Get(fs, q)
      {
        RemoveFrame(fs, dated, q);
      }
    }
  }

  /** `q` lies outside the destination root of every descriptor. */
  predicate OutsideDestinations(q: Path, infos: seq<BackupInfo>) {
    forall i :: 0 <= i < |infos| ==> Disjoint(q, infos[i].destinationFolder)
  }

  /** `IJob.Execute`: the descriptors in configured order, stopping at the
      first fault. */
  function Execute(fs: Node, infos: seq<BackupInfo>, fmt: Formatter, clock: Clock): (r: Outcome)
    ensures (forall i :: 0 <= i < |infos| ==> Get(fs, infos[i].source).None?) ==> r == Completed(fs)
    ensures forall q :: OutsideDestinations(q, infos) ==> Get(r.fs, q) == Get(fs, q)
    decreases |infos|
  {
    if infos == [] then Completed(fs)
    else
      RunBackupFrameAll(fs, infos[0], fmt, clock);
      assert forall q :: OutsideDestinations(q, infos) ==> OutsideDestinations(q, infos[1..]);
      match RunBackup(fs, infos[0], fmt, clock)
      case Aborted(fs', f) => Aborted(fs', f)
      case Completed(fs') => Execute(fs', infos[1..], fmt, clock)
  }

  /** Running two lists of descriptors is running the first, then, unless it
      aborted, the second from where the first left off. */
  lemma {:induction false} ExecuteAppend(fs: Node, a: seq<BackupInfo>, b: seq<BackupInfo>, fmt: Formatter, clock: Clock)
    ensures Execute(fs, a + b, fmt, clock) ==
            match Execute(fs, a, fmt, clock)
            case Aborted(fs', f) => Aborted(fs', f)
            case Completed(fs') => Execute(fs', b, fmt, clock)
    decreases |a|
  {
    if a == [] {
      assert a + b == b;
    } else {
      assert (a + b)[0] == a[0];
      assert (a + b)[1..] == a[1..] + b;
      match RunBackup(fs, a[0], fmt, clock)
      case Aborted(_, _) =>
      case Completed(fs') => ExecuteAppend(fs', a[1..], b, fmt, clock);
    }
  }

  /** A fault ends the run: descriptors after the one that failed never run. */
  lemma AbortStopsRun(fs: Node, a: seq<BackupInfo>, b: seq<BackupInfo>, fmt: Formatter, clock: Clock)
    requires Execute(fs, a, fmt, clock).Aborted?
    ensures Execute(fs, a + b, fmt, clock) == Execute(fs, a, fmt, clock)
  {
    ExecuteAppend(fs, a, b, fmt, clock);
  }

  /** A descriptor whose source is neither a file nor a directory is skipped
      entirely (no deletion, no copy, no pruning) and the run goes on with the
      next descriptor. */
  lemma MissingSourceSkipped(fs: Node, info: BackupInfo, rest: seq<BackupInfo>, fmt: Formatter, clock: Clock)
    requires Get(fs, info.source).None?
    ensures Execute(fs, [info] + rest, fmt, clock) == Execute(fs, rest, fmt, clock)
  {
    assert ([info] + rest)[1..] == rest;
  }

  /** A condition token that mentions "today" without a ':' aborts the run,
      after the dated folder was already deleted. */
  lemma MissingFormatAborts(fs: Node, info: BackupInfo, fmt: Formatter, clock: Clock)
    requires Get(fs, info.source).Some?
    requires Compile(info.conditions, fmt, clock.conditionsNow).Fail?
    ensures RunBackup(fs, info, fmt, clock).Aborted?
    ensures RunBackup(fs, info, fmt, clock).fault.MissingFormat?
    ensures RunBackup(fs, info, fmt, clock).fs == ClearDatedFolder(fs, DatedFolder(info, fmt, clock.today))
  {
  }

  /** For a single-file source the date template plays no part. */
  lemma FileSourceIgnoresTemplate(fs: Node, info: BackupInfo, template: string, fmt: Formatter, clock: Clock)
    requires IsFileAt(fs, info.source)
    ensures RunBackup(fs, info, fmt, clock) == RunBackup(fs, info.(subFolder := template), fmt, clock)
  {
    var dated := DatedFolder(info, fmt, clock.today);
    var fs1 := ClearDatedFolder(fs, dated);
    if fs1 != fs && Get(fs1, info.source).Some? {
      FileIsLeaf(fs, info.source, dated);
      RemoveOnlyDeletes(fs, dated, info.source);
    }
  }

  /** A run touches nothing outside the destination root. */
  lemma RunBackupFrame(fs: Node, info: BackupInfo, fmt: Formatter, clock: Clock, q: Path)
    requires Disjoint(q, info.destinationFolder)
    ensures Get(RunBackup(fs, info, fmt, clock).fs, q) == Get(fs, q)
  {
    if Get(fs, info.source).Some? {
      var dated := DatedFolder(info, fmt, clock.today);
      assert info.destinationFolder <= dated;
      DisjointExtend(q, info.destinationFolder, q, dated);
      var fs1 := ClearDatedFolder(fs, dated);
      ClearDatedFolderFacts(fs, dated);
      match Compile(info.conditions, fmt, clock.conditionsNow)
      case Fail(_) =>
      case Ok(tokens) =>
        var r := CopyPhase(fs1, info, tokens, fmt, clock.today);
        if r.Ok? {
          CopyPhaseFrame(fs1, info, tokens, fmt, clock.today, q);
          DeleteExpiredFrame(r.value, info.destinationFolder, info.keepDays, clock.today, q);
        }
    }
  }

  /** The copy step writes only inside today's folder. */
  lemma CopyPhaseFrame(fs: Node, info: BackupInfo, tokens: seq<string>, fmt: Formatter, today: Instant, q: Path)
    requires Disjoint(q, DatedFolder(info, fmt, today))
    requires CopyPhase(fs, info, tokens, fmt, today).Ok?
    ensures Get(CopyPhase(fs, info, tokens, fmt, today).value, q) == Get(fs, q)
  {
    var dated := DatedFolder(info, fmt, today);
    if IsFileAt(fs, info.source) {
      CopyFileFrame(fs, FileName(info.source), Get(fs, info.source), dated, tokens, today, q);
    } else {
      CopyFolderFrame(fs, CombineSourceFolder(info.source, info.subFolder, fmt, today), dated, tokens, today, q);
    }
  }

  /** `RunBackupFrame` for every path at once. */
  lemma RunBackupFrameAll(fs: Node, info: BackupInfo, fmt: Formatter, clock: Clock)
    ensures forall q :: Disjoint(q, info.destinationFolder) ==> Get(RunBackup(fs, info, fmt, clock).fs, q) == Get(fs, q)
  {
    forall q | Disjoint(q, info.destinationFolder)
      ensures Get(RunBackup(fs, info, fmt, clock).fs, q) == Get(fs, q)
    {
      RunBackupFrame(fs, info, fmt, clock, q);
    }
  }

  /** A completed run prunes every expired directory directly under the
      destination and keeps every other entry there as it was, except
      today's folder. */
  lemma RunBackupKeepsUnexpired(fs: Node, info: BackupInfo, fmt: Formatter, clock: Clock, n: string)
    requires Get(fs, info.source).Some?
    requires fmt(DateFolderFormat, clock.today) != "" && n != fmt(DateFolderFormat, clock.today)
    requires RunBackup(fs, info, fmt, clock).Completed?
    ensures var dest := info.destinationFolder;
            var before := Get(fs, dest + [n]);
            var after := Get(RunBackup(fs, info, fmt, clock).fs, dest + [n]);
            && (before.Some? && Expired(before.value, info.keepDays, clock.today) ==> after == None)
            && (!(before.Some? && Expired(before.value, info.keepDays, clock.today)) ==> after == before)
  {
    var today := clock.today;
    var dest := info.destinationFolder;
    var dated := DatedFolder(info, fmt, today);
    var seg := fmt(DateFolderFormat, today);
    assert dated == dest + [seg];
    var p := dest + [n];
    assert Disjoint(p, dated) by {
      assert p[|dest|] == n && dated[|dest|] == seg;
    }
    var fs1 := ClearDatedFolder(fs, dated);
    ClearDatedFolderFacts(fs, dated);
    assert Get(fs1, p) == Get(fs, p);
    var tokens := Compile(info.conditions, fmt, clock.conditionsNow).value;
    var fs2 := CopyPhase(fs1, info, tokens, fmt, today).value;
    CopyPhaseFrame(fs1, info, tokens, fmt, today, p);
    assert Get(fs2, p) == Get(fs, p);
    assert RunBackup(fs, info, fmt, clock).fs == DeleteExpired(fs2, dest, info.keepDays, today);
    if IsDirAt(fs2, dest) {
      ChildFate(fs2, dest, info.keepDays, today, n);
    } else {
      GetAppend(fs2, dest, [n]);
    }
  }

  /** A folder backed up into a dated folder inside itself never completes:
      the copy keeps finding its own output. */
  lemma NestedTargetAborts(fs: Node, info: BackupInfo, fmt: Formatter, clock: Clock)
    requires IsDirAt(fs, info.source)
    requires var source := CombineSourceFolder(info.source, info.subFolder, fmt, clock.today);
             IsDirAt(fs, source) && source < DatedFolder(info, fmt, clock.today)
    requires Compile(info.conditions, fmt, clock.conditionsNow).Ok?
    ensures RunBackup(fs, info, fmt, clock).Aborted?
  {
    var dated := DatedFolder(info, fmt, clock.today);
    var source := CombineSourceFolder(info.source, info.subFolder, fmt, clock.today);
    var fs1 := ClearDatedFolder(fs, dated);
    if fs1 != fs {
      RemoveKeepsAncestor(fs, dated, info.source);
      RemoveKeepsAncestor(fs, dated, source);
    }
  }

  /** The copy of a folder into a dated folder inside itself: `/d` holding
      one file, backed up into `/d` with today's folder named "D". */
  lemma NestedTargetExample()
    ensures var fs := Dir(0, map["d" := Dir(0, map["f" := File([])])]);
            var info := BackupInfo(["d"], "", "", ["d"], 7);
            RunBackup(fs, info, (format: string, t: Instant) => "D", Clock(0, 0)) == Aborted(fs, PathTooLong)
  {
    var fs := Dir(0, map["d" := Dir(0, map["f" := File([])])]);
    var info := BackupInfo(["d"], "", "", ["d"], 7);
    var fmt := (format: string, t: Instant) => "D";
    assert IsDirAt(fs, ["d"]);
    assert !IsDirAt(fs, ["d", "D"]);
    assert Compile("", fmt, 0) == Ok([]);
    NestedTargetAborts(fs, info, fmt, Clock(0, 0));
  }

  /** What today's folder holds after a completed run, computed from the
      source alone: a fresh directory holding the accepted file (file
      source) or the filtered mirror of the resolved directory (directory
      source); nothing when the resolved directory does not exist, or when
      a negative `keepDays` makes the pruner delete the folder just written. */
  function FreshDatedFolder(fs: Node, info: BackupInfo, tokens: seq<string>, fmt: Formatter, today: Instant): Option<Node>
    requires Get(fs, info.source).Some?
  {
    if info.keepDays < 0 then None
    else match Get(fs, info.source).value
      case File(_) =>
        var name := FileName(info.source);
        Some(Dir(today, if Accepts(name, tokens) then map[name := Get(fs, info.source).value] else map[]))
      case Dir(_, _) =>
        match Get(fs, CombineSourceFolder(info.source, info.subFolder, fmt, today))
        case Some(Dir(c, kids)) => Some(Merge(EmptyDir(today), Dir(c, kids), tokens, today))
        case _ => None
  }

  /** Replace, not merge: after a completed run today's folder holds exactly
      what this run copied, whatever directory was there before, provided no
      file stands at today's path. */
  lemma DatedFolderReplaced(fs: Node, info: BackupInfo, fmt: Formatter, clock: Clock)
    requires Get(fs, info.source).Some?
    requires fmt(DateFolderFormat, clock.today) != ""
    requires Disjoint(info.source, DatedFolder(info, fmt, clock.today))
    requires !IsFileAt(fs, DatedFolder(info, fmt, clock.today))
    requires RunBackup(fs, info, fmt, clock).Completed?
    ensures Compile(info.conditions, fmt, clock.conditionsNow).Ok?
    ensures Get(RunBackup(fs, info, fmt, clock).fs, DatedFolder(info, fmt, clock.today)) ==
            FreshDatedFolder(fs, info, Compile(info.conditions, fmt, clock.conditionsNow).value, fmt, clock.today)
    ensures IsFileAt(fs, info.source) || IsDirAt(fs, CombineSourceFolder(info.source, info.subFolder, fmt, clock.today)) ==>
              IsDirAt(RunBackup(fs, info, fmt, clock).fs, info.destinationFolder)
  {
    var today := clock.today;
    var dest := info.destinationFolder;
    var dated := DatedFolder(info, fmt, today);
    var seg := fmt(DateFolderFormat, today);
    assert dated == dest + [seg];
    var fs1 := ClearDatedFolder(fs, dated);
    ClearDatedFolderFacts(fs, dated);
    assert Get(fs1, dated) == None;
    assert Get(fs1, info.source) == Get(fs, info.source);
    var tokens := Compile(info.conditions, fmt, clock.conditionsNow).value;
    var fs2 := CopyPhase(fs1, info, tokens, fmt, today).value;
    var expected := FreshDatedFolder(fs, info, tokens, fmt, today);
    // Before pruning, today's folder is absent or a directory stamped today.
    var written: Option<Node>;
    match Get(fs, info.source).value {
      case File(_) =>
        written := Some(Dir(today, if Accepts(FileName(info.source), tokens) then map[FileName(info.source) := Get(fs, info.source).value] else map[]));
      case Dir(_, _) =>
        var source := CombineSourceFolder(info.source, info.subFolder, fmt, today);
        DisjointExtend(info.source, dated, source, dated);
        assert Get(fs1, source) == Get(fs, source);
        written := match Get(fs, source)
          case Some(Dir(c, kids)) => Some(Merge(EmptyDir(today), Dir(c, kids), tokens, today))
          case _ => None;
    }
    assert Get(fs2, dated) == written;
    assert info.keepDays >= 0 ==> expected == written;
    if written.Some? {
      assert dated[..|dest|] == dest;
      PrefixExists(fs2, dated, |dest|);
      assert AgeInDays(today, written.value.created) == 0;
    }
    assert RunBackup(fs, info, fmt, clock).fs == DeleteExpired(fs2, dest, info.keepDays, today);
    if IsDirAt(fs2, dest) {
      ChildFate(fs2, dest, info.keepDays, today, seg);
    }
  }

  /** Running the same descriptor again later the same day: when the second
      clock names the same dated folder, resolves the template to the same
      folder and compiles the same tokens, the rerun completes and today's
      folder has the same contents as after the first run. Its directories
      carry the second run's time, so the two are equal exactly when the
      runs share the instant. */
  lemma RerunSameDay(fs: Node, info: BackupInfo, fmt: Formatter, clock: Clock, later: Clock)
    requires Get(fs, info.source).Some?
    requires fmt(DateFolderFormat, clock.today) != ""
    requires fmt(DateFolderFormat, later.today) == fmt(DateFolderFormat, clock.today)
    requires CombineSourceFolder(info.source, info.subFolder, fmt, later.today)
             == CombineSourceFolder(info.source, info.subFolder, fmt, clock.today)
    requires Compile(info.conditions, fmt, later.conditionsNow) == Compile(info.conditions, fmt, clock.conditionsNow)
    requires Disjoint(info.source, info.destinationFolder)
    requires !IsFileAt(fs, DatedFolder(info, fmt, clock.today))
    requires RunBackup(fs, info, fmt, clock).Completed?
    ensures var first := RunBackup(fs, info, fmt, clock).fs;
            var second := RunBackup(first, info, fmt, later);
            var dated := DatedFolder(info, fmt, clock.today);
            && second.Completed?
            && DatedFolder(info, fmt, later.today) == dated
            && (Get(second.fs, dated).Some? <==> Get(first, dated).Some?)
            && (Get(first, dated).Some? ==>
                  && Shape(Get(second.fs, dated).value) == Shape(Get(first, dated).value)
                  && Get(second.fs, dated).value.Dir?
                  && Get(second.fs, dated).value.created == later.today)
            && (later.today == clock.today ==> Get(second.fs, dated) == Get(first, dated))
  {
    var today := clock.today;
    var dest := info.destinationFolder;
    var dated := DatedFolder(info, fmt, today);
    var seg := fmt(DateFolderFormat, today);
    assert dated == dest + [seg];
    assert DatedFolder(info, fmt, later.today) == dated;
    var resolved := CombineSourceFolder(info.source, info.subFolder, fmt, today);
    DisjointExtend(info.source, dest, info.source, dated);
    DisjointExtend(info.source, dest, resolved, dest);
    DisjointExtend(info.source, dest, resolved, dated);
    DatedFolderReplaced(fs, info, fmt, clock);
    var first := RunBackup(fs, info, fmt, clock).fs;
    RunBackupFrame(fs, info, fmt, clock, info.source);
    RunBackupFrame(fs, info, fmt, clock, resolved);
    var tokens := Compile(info.conditions, fmt, clock.conditionsNow).value;
    // The second run: today's folder is cleared, and the copy cannot fail.
    var fs1 := ClearDatedFolder(first, dated);
    ClearDatedFolderFacts(first, dated);
    assert Get(fs1, dated) == None;
    assert Get(fs1, info.source) == Get(fs, info.source);
    assert Get(fs1, resolved) == Get(fs, resolved);
    if IsFileAt(fs, info.source) || IsDirAt(fs, resolved) {
      if IsDirAt(first, dated) {
        RemoveKeepsAncestor(first, dated, dest);
      }
      NoFileBelowDir(fs1, dest, seg);
      if IsFileAt(fs, info.source) {
        GetAppend(fs1, dated, [FileName(info.source)]);
      } else {
        assert TargetDir(fs1, dated, later.today) == EmptyDir(later.today);
        EmptyTargetNeverCollides(Get(fs, resolved).value, tokens, later.today);
      }
    }
    assert RunBackup(first, info, fmt, later).Completed?;
    DatedFolderReplaced(first, info, fmt, later);
    // Both folders are computed from the same source, tokens and resolved
    // folder; only the stamps differ.
    if info.keepDays >= 0 && IsDirAt(fs, info.source) && IsDirAt(fs, resolved) {
      var src := Get(fs, resolved).value;
      MergeShape(EmptyDir(later.today), EmptyDir(today), src, tokens, later.today, today);
    }
  }
}

=== FILE: conditions.dfy ===
/**
 Condition compilation (`CreateBackupConditions`) and the filename filter
 (the `Aggregate` in `CopyFile`). A condition string is split on ',' into
 tokens; a token mentioning "today" is replaced by the clock reading
 formatted with the text between its first and second ':'. A filename is
 accepted when it contains every token.
 */
module Conditions {
  import opened Outcomes
  import opened Text
  import opened FileTree

  /** A token is dynamic when "today" occurs anywhere in it. */
  predicate IsDynamic(token: string) {
    Contains(token, "today")
  }

  /** `k` is the position of the first ':' in `token`. */
  predicate FirstColonAt(token: string, k: int) {
    0 <= k < |token| && token[k] == ':' && forall i :: 0 <= i < k ==> token[i] != ':'
  }

  /** `f` occurs in `token` at `start` and is followed by ':' or the end. */
  predicate PieceAt(token: string, start: int, f: string) {
    0 <= start && start + |f| <= |token| && token[start..start + |f|] == f
    && (start + |f| == |token| || token[start + |f|] == ':')
  }

  /** `f` starts right after the first ':' of `token` and runs up to the next
      ':' or to the end of the token. */
  predicate AfterFirstColon(token: string, f: string) {
    exists k :: 0 <= k < |token| && FirstColonAt(token, k) && PieceAt(token, k + 1, f)
  }

  /** `token.Split(":")[1]`: the second ':'-separated piece, if there is one. */
  function FormatOf(token: string): (r: Option<string>)
    ensures r.Some? <==> ':' in token
    ensures r.Some? ==> ':' !in r.value && Contains(token, ":" + r.value)
    ensures r.Some? ==> AfterFirstColon(token, r.value)
  {
    var pieces := Split(token, ':');
    if |pieces| < 2 then None
    else
      FormatFollowsColon(token, pieces);
      Some(pieces[1])
  }

  /** A token has at most one first ':'. */
  lemma FirstColonUnique(token: string, k: int, j: int)
    requires FirstColonAt(token, k) && FirstColonAt(token, j)
    ensures k == j
  {
  }

  /** Two colon-free pieces at the same place, each ending at ':' or at the
      end, are the same piece. */
  lemma PieceUnique(token: string, start: int, f: string, g: string)
    requires ':' !in f && PieceAt(token, start, f)
    requires ':' !in g && PieceAt(token, start, g)
    ensures f == g
  {
    assert |f| == |g|;
  }

  /** Exactly one colon-free piece follows the first ':'. */
  lemma AfterFirstColonUnique(token: string, f: string, g: string)
    requires ':' !in f && AfterFirstColon(token, f)
    requires ':' !in g && AfterFirstColon(token, g)
    ensures f == g
  {
    var k :| 0 <= k < |token| && FirstColonAt(token, k) && PieceAt(token, k + 1, f);
    var j :| 0 <= j < |token| && FirstColonAt(token, j) && PieceAt(token, j + 1, g);
    FirstColonUnique(token, k, j);
    PieceUnique(token, k + 1, f, g);
  }

  /** `FormatOf` is the colon-free piece after the first ':', and no other. */
  lemma FormatOfUnique(token: string, f: string)
    requires ':' !in f && AfterFirstColon(token, f)
    ensures FormatOf(token) == Some(f)
  {
    assert ':' in token;
    var g := FormatOf(token).value;
    AfterFirstColonUnique(token, f, g);
  }

  /** The second piece of a split sits right after the first separator. */
  lemma FormatFollowsColon(token: string, pieces: seq<string>)
    requires pieces == Split(token, ':') && |pieces| >= 2
    ensures Contains(token, ":" + pieces[1])
    ensures AfterFirstColon(token, pieces[1])
  {
    JoinSplit(token, ':');
    var tail := if |pieces| == 2 then "" else [':'] + Join(pieces[2..], ':');
    assert Join(pieces[1..], ':') == pieces[1] + tail;
    assert token == pieces[0] + (":" + pieces[1]) + tail;
    ContainsInfix(pieces[0], ":" + pieces[1], tail);
    var k := |pieces[0]|;
    assert token[..k] == pieces[0];
    assert forall i :: 0 <= i < k ==> token[i] == pieces[0][i];
    assert FirstColonAt(token, k);
    assert token[k + 1..k + 1 + |pieces[1]|] == pieces[1];
    assert k + 1 + |pieces[1]| < |token| ==> token[k + 1 + |pieces[1]|] == tail[0] == ':';
    assert PieceAt(token, k + 1, pieces[1]);
  }

  /** One token as the loop body of `CreateBackupConditions` leaves it. */
  function ResolveToken(token: string, fmt: Formatter, now: Instant): (r: Result<string>)
    ensures r.Fail? <==> IsDynamic(token) && ':' !in token
    ensures !IsDynamic(token) ==> r == Ok(token)
    ensures r.Fail? ==> r.fault == MissingFormat(token)
    ensures IsDynamic(token) && ':' in token ==> r == Ok(fmt(Split(token, ':')[1], now))
  {
    if !IsDynamic(token) then Ok(token)
    else match FormatOf(token)
      case None => Fail(MissingFormat(token))
      case Some(f) => Ok(fmt(f, now))
  }

  /** The loop of `CreateBackupConditions`: tokens are resolved in order and
      the first token that cannot be resolved aborts the whole compilation. */
  function ResolveTokens(tokens: seq<string>, fmt: Formatter, now: Instant): (r: Result<seq<string>>)
    ensures r.Ok? <==> forall i :: 0 <= i < |tokens| ==> ResolveToken(tokens[i], fmt, now).Ok?
    ensures r.Ok? ==> |r.value| == |tokens|
    ensures r.Ok? ==> forall i :: 0 <= i < |tokens| ==> r.value[i] == ResolveToken(tokens[i], fmt, now).value
    ensures r.Fail? ==> exists i :: 0 <= i < |tokens| && r.fault == MissingFormat(tokens[i])
                          && ResolveToken(tokens[i], fmt, now).Fail?
                          && forall j :: 0 <= j < i ==> ResolveToken(tokens[j], fmt, now).Ok?
    decreases |tokens|
  {
    if tokens == [] then Ok([])
    else match ResolveToken(tokens[0], fmt, now)
      case Fail(f) => Fail(f)
      case Ok(t) =>
        match ResolveTokens(tokens[1..], fmt, now)
        case Fail(f) =>
          var i :| 0 <= i < |tokens[1..]| && f == MissingFormat(tokens[1..][i])
                   && ResolveToken(tokens[1..][i], fmt, now).Fail?
                   && forall j :: 0 <= j < i ==> ResolveToken(tokens[1..][j], fmt, now).Ok?;
          assert forall j :: 0 <= j < i + 1 ==> ResolveToken(tokens[j], fmt, now).Ok? by {
            forall j | 0 <= j < i + 1
              ensures ResolveToken(tokens[j], fmt, now).Ok?
            {
              if j > 0 {
                assert tokens[j] == tokens[1..][j - 1];
              }
            }
          }
          assert tokens[i + 1] == tokens[1..][i];
          Fail(f)
        case Ok(ts) =>
          assert forall i :: 1 <= i < |tokens| ==> tokens[i] == tokens[1..][i - 1];
          Ok([t] + ts)
  }

  /** Every dynamic token carries a ':' (so its format piece exists). */
  predicate AllResolvable(tokens: seq<string>) {
    forall i :: 0 <= i < |tokens| ==> IsDynamic(tokens[i]) ==> ':' in tokens[i]
  }

  /** `out` is `tokens` with each dynamic token replaced by the clock reading
      formatted with its format piece, and every other token unchanged. */
  predicate ResolvedAs(tokens: seq<string>, out: seq<string>, fmt: Formatter, now: Instant) {
    && |out| == |tokens|
    && forall i :: 0 <= i < |tokens| ==>
         (!IsDynamic(tokens[i]) ==> out[i] == tokens[i])
         && (IsDynamic(tokens[i]) ==> ':' in tokens[i] && out[i] == fmt(Split(tokens[i], ':')[1], now))
  }

  /** `CreateBackupConditions`: a blank condition string compiles to no
      tokens; otherwise each ','-separated token is kept, or, when it mentions
      "today", replaced by `now` formatted with the token's format piece; a
      dynamic token without ':' makes the compilation fail. */
  function Compile(condition: string, fmt: Formatter, now: Instant): (r: Result<seq<string>>)
    ensures IsBlank(condition) ==> r == Ok([])
    ensures !IsBlank(condition) ==> (r.Ok? <==> AllResolvable(Split(condition, ',')))
    ensures !IsBlank(condition) && r.Ok? ==> ResolvedAs(Split(condition, ','), r.value, fmt, now)
    ensures r.Fail? ==> exists i :: 0 <= i < |Split(condition, ',')| && r.fault == MissingFormat(Split(condition, ',')[i])
  {
    if IsBlank(condition) then Ok([])
    else
      var tokens := Split(condition, ',');
      ResolveTokensOkIff(tokens, fmt, now);
      ResolveTokens(tokens, fmt, now)
  }

  /** The token loop succeeds iff every dynamic token has a ':', and then
      each resolved token is the literal or the formatted clock reading. */
  lemma ResolveTokensOkIff(tokens: seq<string>, fmt: Formatter, now: Instant)
    ensures ResolveTokens(tokens, fmt, now).Ok? <==> AllResolvable(tokens)
    ensures ResolveTokens(tokens, fmt, now).Ok? ==> ResolvedAs(tokens, ResolveTokens(tokens, fmt, now).value, fmt, now)
  {
    var r := ResolveTokens(tokens, fmt, now);
    if r.Ok? {
      forall i | 0 <= i < |tokens|
        ensures IsDynamic(tokens[i]) ==> ':' in tokens[i]
        ensures IsDynamic(tokens[i]) ==> r.value[i] == fmt(Split(tokens[i], ':')[1], now)
      {
        assert ResolveToken(tokens[i], fmt, now).Ok?;
      }
    } else {
      var i :| 0 <= i < |tokens| && ResolveToken(tokens[i], fmt, now).Fail?;
      assert IsDynamic(tokens[i]) && ':' !in tokens[i];
    }
  }

  /** The left fold `conditions.Aggregate(acc, (acc, item) => acc && name.Contains(item))`. */
  function Aggregate(acc: bool, name: string, tokens: seq<string>): bool
    decreases |tokens|
  {
    if tokens == [] then acc
    else Aggregate(acc && Contains(name, tokens[0]), name, tokens[1..])
  }

  /** The filename filter: the fold started from `true`. */
  predicate Accepts(name: string, tokens: seq<string>) {
    Aggregate(true, name, tokens)
  }

  /** The fold is the conjunction of its seed with one `Contains` per token. */
  lemma {:induction false} AggregateIsConjunction(acc: bool, name: string, tokens: seq<string>)
    ensures Aggregate(acc, name, tokens) <==> acc && forall i :: 0 <= i < |tokens| ==> Contains(name, tokens[i])
    decreases |tokens|
  {
    if tokens != [] {
      AggregateIsConjunction(acc && Contains(name, tokens[0]), name, tokens[1..]);
      assert forall i :: 1 <= i < |tokens| ==> tokens[i] == tokens[1..][i - 1];
    }
  }

  /** AND semantics: a filename passes iff it contains every token. */
  lemma AcceptsIffContainsAll(name: string, tokens: seq<string>)
    ensures Accepts(name, tokens) <==> forall t :: t in tokens ==> Contains(name, t)
  {
    AggregateIsConjunction(true, name, tokens);
  }

  /** Lacking any one token is enough to be rejected. */
  lemma MissingTokenRejects(name: string, tokens: seq<string>, i: int)
    requires 0 <= i < |tokens| && !Contains(name, tokens[i])
    ensures !Accepts(name, tokens)
  {
    AggregateIsConjunction(true, name, tokens);
  }

  /** With two tokens a name is accepted iff it contains both; dropping
      either one from the name causes rejection. */
  lemma TwoTokens(name: string, a: string, b: string)
    ensures Accepts(name, [a, b]) <==> Contains(name, a) && Contains(name, b)
  {
    AggregateIsConjunction(true, name, [a, b]);
  }

  /** Blank (empty or whitespace-only) conditions accept every filename. */
  lemma BlankAcceptsEverything(condition: string, fmt: Formatter, now: Instant, name: string)
    requires IsBlank(condition)
    ensures Compile(condition, fmt, now).Ok?
    ensures Accepts(name, Compile(condition, fmt, now).value)
  {
  }

  /** An empty token (as in "a,,b") accepts every filename. */
  lemma EmptyTokenIsNeutral(name: string, tokens: seq<string>)
    ensures Accepts(name, tokens + [""]) <==> Accepts(name, tokens)
  {
    EmptyIsContained(name);
    AcceptsIffContainsAll(name, tokens + [""]);
    AcceptsIffContainsAll(name, tokens);
  }
}

=== FILE: copy_engine.dfy ===
/**
 The copy engine (`CopyFile` and `CopyFolder`). A directory source is
 mirrored into the target: every subdirectory, at every depth, gets a
 counterpart (created when missing, kept when present), and every file whose
 name the filter accepts is written over whatever file of that name is
 there. Only leaf files are filtered. A missing source changes nothing.
 */
module CopyEngine {
  import opened Outcomes
  import opened FileTree
  import opened Conditions

  /** The names `CopyFolder` writes into its target: every subdirectory of the
      source and every file the filter accepts. */
  function CopiedNames(s: Node, tokens: seq<string>): set<string>
    requires s.Dir?
  {
    set n | n in s.children && (s.children[n].Dir? || Accepts(n, tokens))
  }

  /** The directory `target.CreateSubdirectory(n)` yields: the existing one,
      or a fresh one stamped `stamp`. */
  function SubTarget(t: Node, n: string, stamp: Instant): Node
    requires t.Dir?
  {
    if n in t.children && t.children[n].Dir? then t.children[n] else EmptyDir(stamp)
  }

  /** Somewhere below, a name the copy must write is taken by an entry of the
      other kind: an accepted file over a directory (`CopyTo` fails) or a
      directory over a file (`CreateSubdirectory` fails). */
  predicate Collides(t: Node, s: Node, tokens: seq<string>)
    requires t.Dir? && s.Dir?
    decreases s
  {
    exists n :: n in s.children && n in t.children &&
      match s.children[n]
      case File(_) => Accepts(n, tokens) && t.children[n].Dir?
      case Dir(_, _) => t.children[n].File? || Collides(t.children[n], s.children[n], tokens)
  }

  /** The contents `CopyFolder` leaves in the target directory `t` when the
      source directory is `s` and nothing collides. */
  function Merge(t: Node, s: Node, tokens: seq<string>, stamp: Instant): (r: Node)
    requires t.Dir? && s.Dir?
    ensures r.Dir? && r.created == t.created
    ensures r.children.Keys == t.children.Keys + CopiedNames(s, tokens)
    ensures forall n :: n in s.children && s.children[n].File? && Accepts(n, tokens) ==>
              r.children[n] == s.children[n]
    ensures forall n :: n in s.children && s.children[n].Dir? ==> r.children[n].Dir?
    ensures forall n :: n in t.children && n !in CopiedNames(s, tokens) ==> r.children[n] == t.children[n]
    decreases s
  {
    var names := t.children.Keys + CopiedNames(s, tokens);
    Dir(t.created, map n | n in names ::
      if n in s.children && s.children[n].Dir? then Merge(SubTarget(t, n, stamp), s.children[n], tokens, stamp)
      else if n in s.children && Accepts(n, tokens) then s.children[n]
      else t.children[n])
  }

  /** Every directory of the source, at every depth, has a directory
      counterpart in the merged target. */
  lemma {:induction false} MergeMirrorsDirs(t: Node, s: Node, tokens: seq<string>, stamp: Instant, p: Path)
    requires t.Dir? && s.Dir?
    requires IsDirAt(s, p)
    ensures IsDirAt(Merge(t, s, tokens, stamp), p)
    decreases |p|
  {
    if p != [] {
      var n := p[0];
      FirstStep(s, p);
      BelowIsDir(s.children[n], p[1..]);
      MergeMirrorsDirs(SubTarget(t, n, stamp), s.children[n], tokens, stamp, p[1..]);
    }
  }

  /** Every accepted file of the source, at every depth, is in the merged
      target with the source's bytes. */
  lemma {:induction false} MergeCopiesFiles(t: Node, s: Node, tokens: seq<string>, stamp: Instant, p: Path)
    requires t.Dir? && s.Dir?
    requires IsFileAt(s, p) && Accepts(p[|p| - 1], tokens)
    ensures Get(Merge(t, s, tokens, stamp), p) == Get(s, p)
    decreases |p|
  {
    var n := p[0];
    FirstStep(s, p);
    if |p| > 1 {
      assert p[1..][|p[1..]| - 1] == p[|p| - 1];
      BelowIsDir(s.children[n], p[1..]);
      MergeCopiesFiles(SubTarget(t, n, stamp), s.children[n], tokens, stamp, p[1..]);
    }
  }

  /** Copied into a fresh directory, the result is exactly the filtered
      source: the same directories at every depth, and a file at a path iff
      the source has a file there whose name the filter accepts. */
  lemma {:induction false} MergeIntoEmpty(s: Node, tokens: seq<string>, stamp: Instant, p: Path)
    requires s.Dir?
    ensures var r := Merge(EmptyDir(stamp), s, tokens, stamp);
            (IsDirAt(r, p) <==> IsDirAt(s, p))
            && (IsFileAt(r, p) <==> IsFileAt(s, p) && Accepts(p[|p| - 1], tokens))
            && (IsFileAt(r, p) ==> Get(r, p) == Get(s, p))
    decreases |p|
  {
    var r := Merge(EmptyDir(stamp), s, tokens, stamp);
    if p != [] {
      var n := p[0];
      if n !in s.children {
        assert n !in r.children;
      } else if s.children[n].Dir? {
        assert SubTarget(EmptyDir(stamp), n, stamp) == EmptyDir(stamp);
        MergeIntoEmpty(s.children[n], tokens, stamp, p[1..]);
        if |p| > 1 {
          assert p[1..][|p[1..]| - 1] == p[|p| - 1];
        }
      } else if |p| > 1 {
        assert p[1..] != [];
        assert Get(s, p) == None;
        assert n in r.children ==> r.children[n].File?;
        assert Get(r, p) == None;
      } else {
        assert p[1..] == [];
        assert Get(s, p) == Some(s.children[n]);
        assert n in r.children <==> Accepts(n, tokens);
        assert n in r.children ==> Get(r, p) == Some(r.children[n]);
      }
    }
  }

  /** Nothing can collide with a fresh, empty target. */
  lemma EmptyTargetNeverCollides(s: Node, tokens: seq<string>, stamp: Instant)
    requires s.Dir?
    ensures !Collides(EmptyDir(stamp), s, tokens)
  {
  }

  /** Copying the same source a second time changes nothing: files are
      overwritten with the same bytes and directories already exist. */
  lemma {:induction false} MergeIdempotent(t: Node, s: Node, tokens: seq<string>, stamp: Instant)
    requires t.Dir? && s.Dir?
    ensures Merge(Merge(t, s, tokens, stamp), s, tokens, stamp) == Merge(t, s, tokens, stamp)
    decreases s
  {
    var r := Merge(t, s, tokens, stamp);
    var r2 := Merge(r, s, tokens, stamp);
    forall n | n in s.children && s.children[n].Dir?
      ensures r2.children[n] == r.children[n]
    {
      assert SubTarget(r, n, stamp) == r.children[n];
      MergeIdempotent(SubTarget(t, n, stamp), s.children[n], tokens, stamp);
    }
    assert r2.children == r.children;
  }

  /** The copy does not depend on when it is made: targets of the same shape
      merged with the same source at any two stamps give trees of the same
      shape, differing only in the creation times of their directories. */
  lemma {:induction false} MergeShape(t1: Node, t2: Node, s: Node, tokens: seq<string>, stamp1: Instant, stamp2: Instant)
    requires t1.Dir? && t2.Dir? && s.Dir?
    requires Shape(t1) == Shape(t2)
    ensures Shape(Merge(t1, s, tokens, stamp1)) == Shape(Merge(t2, s, tokens, stamp2))
    decreases s
  {
    var r1 := Merge(t1, s, tokens, stamp1);
    var r2 := Merge(t2, s, tokens, stamp2);
    assert t1.children.Keys == t2.children.Keys;
    forall n | n in r1.children
      ensures Shape(r1.children[n]) == Shape(r2.children[n])
    {
      if n in s.children && s.children[n].Dir? {
        var u1 := SubTarget(t1, n, stamp1);
        var u2 := SubTarget(t2, n, stamp2);
        if n in t1.children {
          assert Shape(t1.children[n]) == Shape(t1).children[n] == Shape(t2).children[n] == Shape(t2.children[n]);
        }
        assert Shape(u1) == Shape(u2);
        MergeShape(u1, u2, s.children[n], tokens, stamp1, stamp2);
      } else if !(n in s.children && Accepts(n, tokens)) {
        assert Shape(t1.children[n]) == Shape(t1).children[n] == Shape(t2).children[n] == Shape(t2.children[n]);
      }
    }
    assert Shape(r1).children == Shape(r2).children;
  }

  /** `CopyFile(source, target, conditions)`: `source` is what the file path
      holds (`FileInfo.Exists` is false for a directory), `name` its last
      segment. The target directory is created even when the filter rejects
      the file; an accepted file replaces any file of the same name. */
  function CopyFile(fs: Node, name: string, source: Option<Node>, target: Path, tokens: seq<string>, stamp: Instant): (r: Result<Node>)
    ensures (source.None? || source.value.Dir?) ==> r == Ok(fs)
    ensures source.Some? && source.value.File? ==>
              (r.Ok? <==> NoFileOnPath(fs, target) && !(Accepts(name, tokens) && IsDirAt(fs, target + [name])))
    ensures r.Fail? ==> r.fault == PathBlocked
    ensures source.Some? && source.value.File? && r.Ok? ==> IsDirAt(r.value, target)
    ensures source.Some? && source.value.File? && r.Ok? && Accepts(name, tokens) ==>
              Get(r.value, target + [name]) == source
    ensures source.Some? && source.value.File? && r.Ok? && !Accepts(name, tokens) ==>
              Get(r.value, target + [name]) == Get(fs, target + [name])
    ensures source.Some? && source.value.File? && r.Ok? && !IsDirAt(fs, target) ==>
              Get(r.value, target) == Some(Dir(stamp, if Accepts(name, tokens) then map[name := source.value] else map[]))
    ensures source.Some? && source.value.File? && r.Ok? && IsDirAt(fs, target) ==>
              var d := Get(fs, target).value;
              Get(r.value, target) == Some(if Accepts(name, tokens) then Dir(d.created, d.children[name := source.value]) else d)
  {
    if source.None? || source.value.Dir? then Ok(fs)
    else match EnsureDir(fs, target, stamp)
      case Fail(f) => Fail(f)
      case Ok(fs1) =>
        EnsureDirBelow(fs, target, stamp, [name]);
        if !Accepts(name, tokens) then Ok(fs1)
        else if IsDirAt(fs1, target + [name]) then Fail(PathBlocked)
        else
          var dest := target + [name];
          assert dest[..|dest| - 1] == target;
          PutKeepsAncestor(fs1, dest, source.value, target);
          PutChild(fs1, target, name, source.value);
          Ok(Put(fs1, dest, source.value))
  }

  /** Creating the directories along `p` changes nothing strictly below `p`:
      an existing directory is kept, a new one is empty. */
  lemma EnsureDirBelow(fs: Node, p: Path, stamp: Instant, q: Path)
    requires q != []
    requires EnsureDir(fs, p, stamp).Ok?
    ensures Get(EnsureDir(fs, p, stamp).value, p + q) == Get(fs, p + q)
  {
    var fs1 := EnsureDir(fs, p, stamp).value;
    GetAppend(fs1, p, q);
    GetAppend(fs, p, q);
    if !IsDirAt(fs, p) {
      assert p[..|p|] == p;
      assert Get(EmptyDir(stamp), q) == None;
    }
  }

  /** The directory the target holds once `Directory.CreateDirectory` ran. */
  function TargetDir(fs: Node, target: Path, stamp: Instant): Node {
    if IsDirAt(fs, target) then Get(fs, target).value else EmptyDir(stamp)
  }

  /** `CopyFolder(source, target, conditions)` on the path `source`
      (`DirectoryInfo.Exists` is false for a file or nothing there). The
      program lists the live source only after it has created the target, so
      a target strictly inside the source is found again at every level and
      the copy nests deeper without end; the model ends it with
      `PathTooLong`. Otherwise the source is copied as it stood. */
  function CopyFolder(fs: Node, source: Path, target: Path, tokens: seq<string>, stamp: Instant): (r: Result<Node>)
    ensures !IsDirAt(fs, source) ==> r == Ok(fs)
    ensures IsDirAt(fs, source) ==>
              (r.Ok? <==> NoFileOnPath(fs, target) && !(source < target)
                          && !Collides(TargetDir(fs, target, stamp), Get(fs, source).value, tokens))
    ensures r.Fail? ==> r.fault == (if NoFileOnPath(fs, target) && source < target then PathTooLong else PathBlocked)
    ensures IsDirAt(fs, source) && r.Ok? ==>
              Get(r.value, target) == Some(Merge(TargetDir(fs, target, stamp), Get(fs, source).value, tokens, stamp))
  {
    if !IsDirAt(fs, source) then Ok(fs)
    else match EnsureDir(fs, target, stamp)
      case Fail(f) => Fail(f)
      case Ok(fs1) =>
        if source < target then Fail(PathTooLong)
        else
          var s := Get(fs, source).value;
          var t := Get(fs1, target).value;
          assert t == TargetDir(fs, target, stamp);
          if Collides(t, s, tokens) then Fail(PathBlocked)
          else
            var merged := Merge(t, s, tokens, stamp);
            if target == [] then Ok(merged)
            else
              PrefixExists(fs1, target, |target| - 1);
              Ok(Put(fs1, target, merged))
  }

  /** Copying leaves every path disjoint from the target as it was. */
  lemma CopyFolderFrame(fs: Node, source: Path, target: Path, tokens: seq<string>, stamp: Instant, q: Path)
    requires Disjoint(target, q)
    requires CopyFolder(fs, source, target, tokens, stamp).Ok?
    ensures Get(CopyFolder(fs, source, target, tokens, stamp).value, q) == Get(fs, q)
  {
    if IsDirAt(fs, source) {
      var fs1 := EnsureDir(fs, target, stamp).value;
      EnsureDirFrame(fs, target, stamp, q);
      var t := Get(fs1, target).value;
      PutFrame(fs1, target, Merge(t, Get(fs, source).value, tokens, stamp), q);
    }
  }

  /** Copying a file leaves every path disjoint from the target as it was. */
  lemma CopyFileFrame(fs: Node, name: string, source: Option<Node>, target: Path, tokens: seq<string>, stamp: Instant, q: Path)
    requires Disjoint(target, q)
    requires CopyFile(fs, name, source, target, tokens, stamp).Ok?
    ensures Get(CopyFile(fs, name, source, target, tokens, stamp).value, q) == Get(fs, q)
  {
    if source.Some? && source.value.File? {
      var fs1 := EnsureDir(fs, target, stamp).value;
      EnsureDirFrame(fs, target, stamp, q);
      if Accepts(name, tokens) {
        assert Disjoint(target + [name], q) by {
          assert target <= target + [name];
        }
        PutFrame(fs1, target + [name], source.value, q);
      }
    }
  }
}

=== FILE: filetree.dfy ===
/**
 An immutable model of the part of a filesystem the backup job touches: a
 tree whose leaves are files (their bytes) and whose inner nodes are
 directories (a creation instant and a map from names to children). Paths
 are sequences of names below the root; the operations below are the
 filesystem calls the job makes (`Directory.Exists`, `File.Exists`,
 `Directory.CreateDirectory`, `Directory.Delete(path, true)`,
 `FileInfo.CopyTo(path, true)`, `Path.Combine`).
 */
module FileTree {
  import opened Outcomes

  /** A point in time, in .NET ticks (100 ns). */
  type Instant = int

  const TicksPerDay: int := 864_000_000_000

  /** .NET `DateTime.ToString(format)`: left uninterpreted. */
  type Formatter = (string, Instant) -> string

  type Bytes = seq<bv8>

  type Path = seq<string>

  datatype Node = File(data: Bytes) | Dir(created: Instant, children: map<string, Node>)

  /** A directory created at `stamp`, with nothing in it. */
  function EmptyDir(stamp: Instant): Node {
    Dir(stamp, map[])
  }

  /** The tree with every directory's creation time set to zero: what two
      copies of the same contents made at different moments have in common. */
  function Shape(n: Node): (r: Node)
    ensures r.Dir? <==> n.Dir?
    ensures r.Dir? ==> r.children.Keys == n.children.Keys && r.created == 0
    decreases n
  {
    match n
    case File(data) => File(data)
    case Dir(_, kids) => Dir(0, map k | k in kids :: Shape(kids[k]))
  }

  /** `TimeSpan.Days` of a span given in ticks: whole days, truncated toward zero. */
  function WholeDays(span: int): int {
    if span >= 0 then span / TicksPerDay else -((-span) / TicksPerDay)
  }

  /** `Path.Combine(p, seg)` for a relative segment: an empty segment adds nothing. */
  function Combine(p: Path, seg: string): Path {
    if seg == "" then p else p + [seg]
  }

  /** Neither path is a prefix of the other: the two subtrees share nothing. */
  predicate Disjoint(p: Path, q: Path) {
    !(p <= q) && !(q <= p)
  }

  /** The node at `p`, if every step of `p` names an existing entry. */
  function Get(n: Node, p: Path): Option<Node>
    decreases |p|
  {
    if p == [] then Some(n)
    else match n
      case File(_) => None
      case Dir(_, kids) => if p[0] in kids then Get(kids[p[0]], p[1..]) else None
  }

  predicate IsDirAt(n: Node, p: Path) {
    Get(n, p).Some? && Get(n, p).value.Dir?
  }

  predicate IsFileAt(n: Node, p: Path) {
    Get(n, p).Some? && Get(n, p).value.File?
  }

  /** No prefix of `p`, `p` included, names a file. */
  predicate NoFileOnPath(n: Node, p: Path) {
    forall k :: 0 <= k <= |p| ==> !IsFileAt(n, p[..k])
  }

  /** Looking up `p + q` is looking up `q` in the node at `p`. */
  lemma {:induction false} GetAppend(n: Node, p: Path, q: Path)
    ensures Get(n, p + q) == (if Get(n, p).Some? then Get(Get(n, p).value, q) else None)
    decreases |p|
  {
    if p != [] {
      assert p + q != [];
      assert (p + q)[0] == p[0];
      assert (p + q)[1..] == p[1..] + q;
      match n
      case File(_) =>
      case Dir(_, kids) =>
        if p[0] in kids {
          GetAppend(kids[p[0]], p[1..], q);
        }
    } else {
      assert p + q == q;
    }
  }

  /** A lookup that goes at least one step deep starts in a directory. */
  lemma FirstStep(n: Node, p: Path)
    requires p != [] && Get(n, p).Some?
    ensures n.Dir? && p[0] in n.children && Get(n.children[p[0]], p[1..]) == Get(n, p)
  {
  }

  /** Only a directory can have a directory or a file strictly below it. */
  lemma BelowIsDir(n: Node, p: Path)
    requires IsDirAt(n, p) || (p != [] && IsFileAt(n, p))
    ensures n.Dir?
  {
    if p != [] {
      FirstStep(n, p);
    }
  }

  /** Looking up a prefix of a path that leads somewhere leads somewhere too. */
  lemma PrefixExists(n: Node, p: Path, k: nat)
    requires k <= |p|
    requires Get(n, p).Some?
    ensures IsDirAt(n, p[..k]) || (k == |p| && IsFileAt(n, p))
  {
    assert p == p[..k] + p[k..];
    GetAppend(n, p[..k], p[k..]);
    if k < |p| {
      assert p[k..] != [];
    }
  }

  /** A file has nothing below it: no existing path runs through a file. */
  lemma FileIsLeaf(n: Node, p: Path, q: Path)
    requires IsFileAt(n, p) && Get(n, q).Some?
    ensures !(p < q)
  {
    if p < q {
      assert q[..|p|] == p;
      PrefixExists(n, q, |p|);
    }
  }

  /** Below an existing directory, only the last step of a path can be a file. */
  lemma NoFileBelowDir(n: Node, p: Path, x: string)
    requires IsDirAt(n, p) && !IsFileAt(n, p + [x])
    ensures NoFileOnPath(n, p + [x])
  {
    forall k | 0 <= k <= |p + [x]|
      ensures !IsFileAt(n, (p + [x])[..k])
    {
      if k <= |p| {
        assert (p + [x])[..k] == p[..k];
        assert p[..|p|] == p;
        PrefixExists(n, p, k);
      } else {
        assert (p + [x])[..k] == p + [x];
      }
    }
  }

  /** Replace the node at `p` by `x`. The parent of `p` must already be a
      directory for the write to land; otherwise nothing changes. */
  function Put(n: Node, p: Path, x: Node): (r: Node)
    ensures p == [] ==> r == x
    ensures p != [] && IsDirAt(n, p[..|p| - 1]) ==> Get(r, p) == Some(x)
    ensures p != [] && !IsDirAt(n, p[..|p| - 1]) ==> r == n
    ensures p != [] && n.Dir? ==> r.Dir? && r.created == n.created
    decreases |p|
  {
    if p == [] then x
    else match n
      case File(_) => n
      case Dir(c, kids) =>
        if |p| == 1 then Dir(c, kids[p[0] := x])
        else if p[0] in kids then
          assert p[..|p| - 1][1..] == p[1..][..|p[1..]| - 1];
          Dir(c, kids[p[0] := Put(kids[p[0]], p[1..], x)])
        else n
  }

  /** A write at `p` leaves every path disjoint from `p` as it was. */
  lemma {:induction false} PutFrame(n: Node, p: Path, x: Node, q: Path)
    requires Disjoint(p, q)
    ensures Get(Put(n, p, x), q) == Get(n, q)
    decreases |p|
  {
    assert p != [] && q != [];
    if n.Dir? && q[0] in n.children && p[0] == q[0] && |p| > 1 {
      assert p == [p[0]] + p[1..];
      assert q == [q[0]] + q[1..];
      assert Disjoint(p[1..], q[1..]);
      PutFrame(n.children[p[0]], p[1..], x, q[1..]);
    }
  }

  /** A write at `p` keeps every directory strictly above `p` a directory. */
  lemma {:induction false} PutKeepsAncestor(n: Node, p: Path, x: Node, q: Path)
    requires q < p && IsDirAt(n, q)
    ensures IsDirAt(Put(n, p, x), q)
    decreases |q|
  {
    BelowIsDir(n, q);
    if q != [] {
      FirstStep(n, q);
      assert q[0] == p[0];
      assert q[1..] < p[1..];
      if |p| > 1 {
        PutKeepsAncestor(n.children[p[0]], p[1..], x, q[1..]);
      }
    }
  }

  /** Writing back what is already at `p` changes nothing. */
  lemma {:induction false} PutSame(n: Node, p: Path)
    requires Get(n, p).Some?
    ensures Put(n, p, Get(n, p).value) == n
    decreases |p|
  {
    if p != [] {
      FirstStep(n, p);
      if |p| > 1 {
        PutSame(n.children[p[0]], p[1..]);
      }
      assert n.children[p[0] := Put(n.children[p[0]], p[1..], Get(n, p).value)] == n.children;
    }
  }

  /** `Directory.Delete(path, true)` on whatever is at the non-empty path `p`. */
  function Remove(n: Node, p: Path): (r: Node)
    requires p != []
    ensures Get(r, p) == None
    ensures Get(n, p) == None ==> r == n
    ensures n.Dir? ==> r.Dir? && r.created == n.created
    decreases |p|
  {
    match n
    case File(_) => n
    case Dir(c, kids) =>
      if |p| == 1 then
        assert p[1..] == [];
        if p[0] in kids then
          assert Get(n, p) == Get(kids[p[0]], []);
          Dir(c, kids - {p[0]})
        else n
      else if p[0] in kids then Dir(c, kids[p[0] := Remove(kids[p[0]], p[1..])])
      else n
  }

  /** A deletion at `p` leaves every path disjoint from `p` as it was. */
  lemma {:induction false} RemoveFrame(n: Node, p: Path, q: Path)
    requires p != []
    requires Disjoint(p, q)
    ensures Get(Remove(n, p), q) == Get(n, q)
    decreases |p|
  {
    assert q != [];
    if n.Dir? && q[0] in n.children && p[0] == q[0] && |p| > 1 {
      assert p == [p[0]] + p[1..];
      assert q == [q[0]] + q[1..];
      assert Disjoint(p[1..], q[1..]);
      RemoveFrame(n.children[p[0]], p[1..], q[1..]);
    }
  }

  /** A deletion at `p` keeps every directory strictly above `p`. */
  lemma {:induction false} RemoveKeepsAncestor(n: Node, p: Path, q: Path)
    requires q < p && IsDirAt(n, q)
    ensures IsDirAt(Remove(n, p), q)
    decreases |q|
  {
    BelowIsDir(n, q);
    if q != [] {
      FirstStep(n, q);
      assert q[0] == p[0];
      assert q[1..] < p[1..];
      if |p| > 1 {
        RemoveKeepsAncestor(n.children[p[0]], p[1..], q[1..]);
      }
    }
  }

  /** A deletion only takes entries away: away from the ancestors of `p`,
      whatever is still found was there before. */
  lemma {:induction false} RemoveOnlyDeletes(n: Node, p: Path, q: Path)
    requires p != [] && !(q < p)
    requires Get(Remove(n, p), q).Some?
    ensures Get(Remove(n, p), q) == Get(n, q)
    decreases |p|
  {
    var r := Remove(n, p);
    if q != [] && n.Dir? {
      FirstStep(r, q);
      if |p| > 1 && p[0] == q[0] && p[0] in n.children {
        assert q == [q[0]] + q[1..] && p == [p[0]] + p[1..];
        RemoveOnlyDeletes(n.children[p[0]], p[1..], q[1..]);
      }
    }
  }

  /** Writing a child `x` into the directory at `p` adds exactly that entry. */
  lemma {:induction false} PutChild(n: Node, p: Path, x: string, v: Node)
    requires IsDirAt(n, p)
    ensures Get(Put(n, p + [x], v), p) ==
            Some(Dir(Get(n, p).value.created, Get(n, p).value.children[x := v]))
    decreases |p|
  {
    BelowIsDir(n, p);
    if p != [] {
      FirstStep(n, p);
      assert (p + [x])[0] == p[0];
      assert (p + [x])[1..] == p[1..] + [x];
      PutChild(n.children[p[0]], p[1..], x, v);
    } else {
      assert p + [x] == [x];
    }
  }

  /** Paths that extend disjoint paths are disjoint. */
  lemma DisjointExtend(p: Path, q: Path, p': Path, q': Path)
    requires Disjoint(p, q) && p <= p' && q <= q'
    ensures Disjoint(p', q')
  {
    var i :| 0 <= i < |p| && i < |q| && p[i] != q[i];
    assert p'[i] == p[i] && q'[i] == q[i];
  }

  /** `Directory.CreateDirectory(p)`: creates every missing directory along
      `p`, stamped `stamp`; fails when a file stands anywhere on the way. */
  function EnsureDir(n: Node, p: Path, stamp: Instant): (r: Result<Node>)
    ensures r.Ok? <==> NoFileOnPath(n, p)
    ensures r.Fail? ==> r.fault == PathBlocked
    ensures r.Ok? ==> IsDirAt(r.value, p)
    ensures IsDirAt(n, p) ==> r == Ok(n)
    ensures r.Ok? && !IsDirAt(n, p) ==> Get(r.value, p) == Some(EmptyDir(stamp))
    ensures r.Ok? && p != [] ==> n.Dir? && r.value.Dir? && r.value.created == n.created
    decreases |p|
  {
    if p == [] then
      assert p[..0] == p;
      if n.Dir? then Ok(n) else Fail(PathBlocked)
    else match n
      case File(_) =>
        assert p[..0] == [];
        Fail(PathBlocked)
      case Dir(c, kids) =>
        var child := if p[0] in kids then kids[p[0]] else EmptyDir(stamp);
        NoFileOnPathStep(n, p, child, stamp);
        match EnsureDir(child, p[1..], stamp)
        case Fail(f) => Fail(f)
        case Ok(c2) =>
          assert IsDirAt(n, p) ==> kids[p[0] := c2] == kids;
          Ok(Dir(c, kids[p[0] := c2]))
  }

  /** One step of `EnsureDir`: the path below the first name, seen from the
      child that name leads to (or from a fresh directory when it is absent). */
  lemma NoFileOnPathStep(n: Node, p: Path, child: Node, stamp: Instant)
    requires n.Dir? && p != []
    requires child == (if p[0] in n.children then n.children[p[0]] else EmptyDir(stamp))
    ensures NoFileOnPath(n, p) <==> NoFileOnPath(child, p[1..])
    ensures IsDirAt(n, p) <==> (p[0] in n.children && IsDirAt(child, p[1..]))
  {
    forall k | 0 <= k < |p|
      ensures p[..k + 1] == [p[0]] + p[1..][..k]
    {
    }
    assert p[..0] == [];
    assert p[..|p|] == p;
    if p[0] in n.children {
      forall k | 0 <= k < |p|
        ensures IsFileAt(n, p[..k + 1]) <==> IsFileAt(child, p[1..][..k])
      {
        assert p[..k + 1][1..] == p[1..][..k];
      }
    } else {
      forall k | 0 <= k < |p|
        ensures !IsFileAt(n, p[..k + 1]) && !IsFileAt(child, p[1..][..k])
      {
        if k > 0 {
          assert p[1..][..k] != [];
        }
      }
    }
    if NoFileOnPath(child, p[1..]) {
      forall k | 0 <= k <= |p|
        ensures !IsFileAt(n, p[..k])
      {
        if k > 0 {
          assert IsFileAt(n, p[..k]) <==> IsFileAt(child, p[1..][..k - 1]);
        }
      }
    }
    if NoFileOnPath(n, p) {
      forall k | 0 <= k <= |p[1..]|
        ensures !IsFileAt(child, p[1..][..k])
      {
        assert IsFileAt(n, p[..k + 1]) <==> IsFileAt(child, p[1..][..k]);
      }
    }
  }

  /** Creating the directories along `p` leaves every path disjoint from `p` as it was. */
  lemma {:induction false} EnsureDirFrame(n: Node, p: Path, stamp: Instant, q: Path)
    requires Disjoint(p, q)
    requires EnsureDir(n, p, stamp).Ok?
    ensures Get(EnsureDir(n, p, stamp).value, q) == Get(n, q)
    decreases |p|
  {
    assert p != [] && q != [];
    var kids := n.children;
    var child := if p[0] in kids then kids[p[0]] else EmptyDir(stamp);
    NoFileOnPathStep(n, p, child, stamp);
    if q[0] == p[0] {
      assert p == [p[0]] + p[1..];
      assert q == [q[0]] + q[1..];
      assert Disjoint(p[1..], q[1..]);
      EnsureDirFrame(child, p[1..], stamp, q[1..]);
      assert q[1..] != [];
    }
  }
}

=== FILE: outcomes.dfy ===
/**
 Optional values and the fallible results of the job's steps. The faults are
 the exceptions the job's code can raise and that nothing in the job catches.
 */
module Outcomes {

  datatype Option<+T> = None | Some(value: T)

  datatype Fault =
    /** A condition token mentions "today" but has no ':' after which a date
        format could be read (an `IndexOutOfRangeException`). */
    | MissingFormat(token: string)
    /** A file stands where a directory must be created, or a directory where
        a file must be written (an `IOException`). */
    | PathBlocked
    /** `File.GetAttributes` finds nothing at the source path (a
        `FileNotFoundException`); possible only when deleting the dated
        folder removed the source. */
    | SourceNotFound
    /** A folder is copied into a target inside itself: the copy re-lists the
        live source, finds its own output and copies it again, one level
        deeper each time, until the path exceeds the system limit (a
        `PathTooLongException`). */
    | PathTooLong

  datatype Result<+T> = Ok(value: T) | Fail(fault: Fault)
}

=== FILE: retention.dfy ===
/**
 The retention pruner (`DeleteExpiredBackupFiles`): every immediate child
 directory of the destination root whose age in whole days is strictly
 greater than `keepDays` is deleted with everything under it. Files directly
 in the root, deeper entries and the root itself are left alone.
 */
module Retention {
  import opened Outcomes
  import opened FileTree

  /** `today.Subtract(dir.CreationTime).Days`. */
  function AgeInDays(today: Instant, created: Instant): int {
    WholeDays(today - created)
  }

  /** A child the pruner deletes: a directory older than `keepDays` whole days. */
  predicate Expired(child: Node, keepDays: int, today: Instant) {
    child.Dir? && AgeInDays(today, child.created) > keepDays
  }

  /** The children that survive pruning. */
  function Survivors(kids: map<string, Node>, keepDays: int, today: Instant): map<string, Node> {
    map n | n in kids && !Expired(kids[n], keepDays, today) :: kids[n]
  }

  /** `DeleteExpiredBackupFiles(destination, keepDays, today)`. */
  function DeleteExpired(fs: Node, dest: Path, keepDays: int, today: Instant): (r: Node)
    ensures !IsDirAt(fs, dest) ==> r == fs
    ensures IsDirAt(fs, dest) ==> IsDirAt(r, dest) && Get(r, dest).value.created == Get(fs, dest).value.created
    ensures IsDirAt(fs, dest) ==>
              var before := Get(fs, dest).value.children;
              var after := Get(r, dest).value.children;
              && (forall n :: n in after <==> n in before && !Expired(before[n], keepDays, today))
              && (forall n :: n in after ==> after[n] == before[n])
  {
    if !IsDirAt(fs, dest) then fs
    else
      var d := Get(fs, dest).value;
      var pruned := Dir(d.created, Survivors(d.children, keepDays, today));
      if dest == [] then pruned
      else
        PrefixExists(fs, dest, |dest| - 1);
        Put(fs, dest, pruned)
  }

  /** Pruning leaves every path disjoint from the destination root as it was. */
  lemma DeleteExpiredFrame(fs: Node, dest: Path, keepDays: int, today: Instant, q: Path)
    requires Disjoint(dest, q)
    ensures Get(DeleteExpired(fs, dest, keepDays, today), q) == Get(fs, q)
  {
    if IsDirAt(fs, dest) {
      var d := Get(fs, dest).value;
      PutFrame(fs, dest, Dir(d.created, Survivors(d.children, keepDays, today)), q);
    }
  }

  /** Pruning keeps every directory strictly above the destination root. */
  lemma DeleteExpiredKeepsAncestors(fs: Node, dest: Path, keepDays: int, today: Instant, q: Path)
    requires q < dest && IsDirAt(fs, q)
    ensures IsDirAt(DeleteExpired(fs, dest, keepDays, today), q)
  {
    if IsDirAt(fs, dest) {
      var d := Get(fs, dest).value;
      PutKeepsAncestor(fs, dest, Dir(d.created, Survivors(d.children, keepDays, today)), q);
    }
  }

  /** The fate of one immediate child: a directory is deleted iff its age is
      greater than `keepDays`, and a file is never touched. */
  lemma ChildFate(fs: Node, dest: Path, keepDays: int, today: Instant, n: string)
    requires IsDirAt(fs, dest)
    ensures IsDirAt(fs, dest + [n]) && AgeInDays(today, Get(fs, dest + [n]).value.created) > keepDays ==>
              Get(DeleteExpired(fs, dest, keepDays, today), dest + [n]) == None
    ensures IsDirAt(fs, dest + [n]) && AgeInDays(today, Get(fs, dest + [n]).value.created) <= keepDays ==>
              Get(DeleteExpired(fs, dest, keepDays, today), dest + [n]) == Get(fs, dest + [n])
    ensures IsFileAt(fs, dest + [n]) ==>
              Get(DeleteExpired(fs, dest, keepDays, today), dest + [n]) == Get(fs, dest + [n])
    ensures Get(fs, dest + [n]) == None ==> Get(DeleteExpired(fs, dest, keepDays, today), dest + [n]) == None
  {
    var r := DeleteExpired(fs, dest, keepDays, today);
    GetAppend(fs, dest, [n]);
    GetAppend(r, dest, [n]);
  }

  /** Whole days truncate: a span a tick short of `k + 1` days is `k` days. */
  lemma WholeDaysOfSpan(k: nat, extra: int)
    requires 0 <= extra < TicksPerDay
    ensures WholeDays(k * TicksPerDay + extra) == k
  {
  }

  /** The strict threshold: a folder created `keepDays` days and almost one
      more day ago is kept, while one created exactly `keepDays + 1` days ago
      is deleted. */
  lemma RetentionThreshold(fs: Node, dest: Path, keepDays: nat, today: Instant, kept: string, gone: string)
    requires IsDirAt(fs, dest + [kept]) && IsDirAt(fs, dest + [gone])
    requires Get(fs, dest + [kept]).value.created == today - (keepDays * TicksPerDay + TicksPerDay - 1)
    requires Get(fs, dest + [gone]).value.created == today - (keepDays + 1) * TicksPerDay
    ensures Get(DeleteExpired(fs, dest, keepDays, today), dest + [kept]) == Get(fs, dest + [kept])
    ensures Get(DeleteExpired(fs, dest, keepDays, today), dest + [gone]) == None
  {
    PrefixExists(fs, dest + [kept], |dest|);
    assert (dest + [kept])[..|dest|] == dest;
    WholeDaysOfSpan(keepDays, TicksPerDay - 1);
    WholeDaysOfSpan(keepDays + 1, 0);
    ChildFate(fs, dest, keepDays, today, kept);
    ChildFate(fs, dest, keepDays, today, gone);
  }

  /** After pruning no expired child is left, so pruning again changes nothing. */
  lemma DeleteExpiredIdempotent(fs: Node, dest: Path, keepDays: int, today: Instant)
    ensures var r := DeleteExpired(fs, dest, keepDays, today);
            DeleteExpired(r, dest, keepDays, today) == r
  {
    var r := DeleteExpired(fs, dest, keepDays, today);
    if IsDirAt(fs, dest) {
      var d := Get(r, dest).value;
      assert Survivors(d.children, keepDays, today) == d.children;
      assert Dir(d.created, Survivors(d.children, keepDays, today)) == d;
      if dest != [] {
        PrefixExists(r, dest, |dest| - 1);
        PutSame(r, dest);
      }
    }
  }
}

=== FILE: source_resolver.dfy ===
/**
 Source resolution (`CombineSourceFolder`): for a directory source with a
 non-blank date template, ">>" in the template becomes '-', the run date is
 formatted with it, and each '-'-separated piece of the result is appended
 to the source path with `Path.Combine`.
 */
module SourceResolver {
  import opened Text
  import opened FileTree

  /** The non-empty pieces, in their original order. */
  function NonEmpty(pieces: seq<string>): seq<string>
    decreases |pieces|
  {
    if pieces == [] then []
    else (if pieces[0] == "" then [] else [pieces[0]]) + NonEmpty(pieces[1..])
  }

  /** Dropping empty pieces keeps a sequence without empty pieces as it is. */
  lemma {:induction false} NonEmptyKeepsAll(pieces: seq<string>)
    requires forall i :: 0 <= i < |pieces| ==> pieces[i] != ""
    ensures NonEmpty(pieces) == pieces
    decreases |pieces|
  {
    if pieces != [] {
      NonEmptyKeepsAll(pieces[1..]);
      assert [pieces[0]] + pieces[1..] == pieces;
    }
  }

  /** The kept pieces are exactly the non-empty ones that were there. */
  lemma {:induction false} NonEmptyMembers(pieces: seq<string>)
    ensures forall s :: s in NonEmpty(pieces) <==> s in pieces && s != ""
    decreases |pieces|
  {
    if pieces != [] {
      NonEmptyMembers(pieces[1..]);
      assert pieces == [pieces[0]] + pieces[1..];
    }
  }

  /** The `foreach` of `Path.Combine` calls over the pieces. */
  function AppendAll(p: Path, pieces: seq<string>): (r: Path)
    ensures r == p + NonEmpty(pieces)
    decreases |pieces|
  {
    if pieces == [] then p
    else
      var r := AppendAll(Combine(p, pieces[0]), pieces[1..]);
      assert NonEmpty(pieces) == (if pieces[0] == "" then [] else [pieces[0]]) + NonEmpty(pieces[1..]);
      r
  }

  /** The pieces a template yields on the run date. */
  function DatePieces(subFolder: string, fmt: Formatter, today: Instant): seq<string> {
    Split(fmt(ReplaceChevrons(subFolder), today), '-')
  }

  /** `CombineSourceFolder(path, subFolder, today)`. */
  function CombineSourceFolder(path: Path, subFolder: string, fmt: Formatter, today: Instant): (r: Path)
    ensures IsBlank(subFolder) ==> r == path
    ensures path <= r
    ensures !IsBlank(subFolder) ==> r[|path|..] == NonEmpty(DatePieces(subFolder, fmt, today))
    ensures forall i :: |path| <= i < |r| ==> r[i] != "" && '-' !in r[i]
  {
    if IsBlank(subFolder) then path
    else
      var pieces := DatePieces(subFolder, fmt, today);
      var r := AppendAll(path, pieces);
      NonEmptyMembers(pieces);
      assert forall i :: |path| <= i < |r| ==> r[i] in NonEmpty(pieces);
      r
  }

  /** When the formatted date has no empty piece, the appended segments joined
      with '-' give back exactly the formatted date. */
  lemma ResolvedSegmentsRoundTrip(path: Path, subFolder: string, fmt: Formatter, today: Instant)
    requires !IsBlank(subFolder)
    requires forall i :: 0 <= i < |DatePieces(subFolder, fmt, today)| ==> DatePieces(subFolder, fmt, today)[i] != ""
    ensures var r := CombineSourceFolder(path, subFolder, fmt, today);
            Join(r[|path|..], '-') == fmt(ReplaceChevrons(subFolder), today)
  {
    NonEmptyKeepsAll(DatePieces(subFolder, fmt, today));
    JoinSplit(fmt(ReplaceChevrons(subFolder), today), '-');
  }

  /** The ">>" separators of a day template become '-'. */
  lemma DayTemplateRewritten()
    ensures ReplaceChevrons("yyyy>>MM>>dd") == "yyyy-MM-dd"
  {
    assert ReplaceChevrons("dd") == "dd";
    assert ">>dd"[2..] == "dd";
    assert ReplaceChevrons(">>dd") == "-dd";
    assert "M>>dd"[1..] == ">>dd";
    assert ReplaceChevrons("M>>dd") == "M-dd";
    assert "MM>>dd"[1..] == "M>>dd";
    assert ReplaceChevrons("MM>>dd") == "MM-dd";
    assert ">>MM>>dd"[2..] == "MM>>dd";
    assert ReplaceChevrons(">>MM>>dd") == "-MM-dd";
    assert "y>>MM>>dd"[1..] == ">>MM>>dd";
    assert ReplaceChevrons("y>>MM>>dd") == "y-MM-dd";
    assert "yy>>MM>>dd"[1..] == "y>>MM>>dd";
    assert ReplaceChevrons("yy>>MM>>dd") == "yy-MM-dd";
    assert "yyy>>MM>>dd"[1..] == "yy>>MM>>dd";
    assert ReplaceChevrons("yyy>>MM>>dd") == "yyy-MM-dd";
    assert "yyyy>>MM>>dd"[1..] == "yyy>>MM>>dd";
    assert ReplaceChevrons("yyyy>>MM>>dd") == "yyyy-MM-dd";
  }

  /** "2024-01-10" splits on '-' into its three fields. */
  lemma DayStringSplit()
    ensures Split("2024-01-10", '-') == ["2024", "01", "10"]
  {
    var parts := ["2024", "01", "10"];
    assert parts[1..] == ["01", "10"] && parts[1..][1..] == ["10"];
    assert Join(parts[1..], '-') == "01-10";
    assert Join(parts, '-') == "2024-01-10";
    assert forall i :: 0 <= i < |parts| ==> '-' !in parts[i];
    SplitJoin(parts, '-');
  }

  /** None of the three fields is empty, so none is dropped. */
  lemma DayFieldsKept()
    ensures NonEmpty(["2024", "01", "10"]) == ["2024", "01", "10"]
  {
    var parts := ["2024", "01", "10"];
    assert parts[1..] == ["01", "10"] && parts[1..][1..] == ["10"];
    assert NonEmpty(["10"]) == ["10"];
    assert NonEmpty(["01", "10"]) == ["01", "10"];
  }

  /** A template "yyyy>>MM>>dd" that formats to "2024-01-10" resolves to
      three segments below the source. */
  lemma DayTemplateExample(path: Path, fmt: Formatter, today: Instant)
    requires fmt("yyyy-MM-dd", today) == "2024-01-10"
    ensures CombineSourceFolder(path, "yyyy>>MM>>dd", fmt, today) == path + ["2024", "01", "10"]
  {
    var template := "yyyy>>MM>>dd";
    assert !IsBlank(template) by {
      assert !IsWhiteSpace(template[0]);
    }
    DayTemplateRewritten();
    DayStringSplit();
    DayFieldsKept();
    var r := CombineSourceFolder(path, template, fmt, today);
    assert r[|path|..] == ["2024", "01", "10"];
    assert r == r[..|path|] + r[|path|..];
  }
}

=== FILE: text.dfy ===
/**
 The string primitives the backup job relies on, with the semantics of the
 .NET calls it makes: ordinal `Contains`, `Split` on a one-character
 separator (empty pieces kept), `Replace(">>", "-")` and
 `IsNullOrWhiteSpace`.
 */
module Text {

  /** `p` is a prefix of `s`. */
  predicate IsPrefix(p: string, s: string) {
    |p| <= |s| && s[..|p|] == p
  }

  /** `t` occurs in `s` starting at position `i`. */
  predicate OccursAt(s: string, t: string, i: int) {
    0 <= i && i + |t| <= |s| && s[i..i + |t|] == t
  }

  /** Ordinal `String.Contains`: `t` is a prefix of some suffix of `s`. */
  predicate Contains(s: string, t: string)
    decreases |s|
  {
    IsPrefix(t, s) || (|s| > 0 && Contains(s[1..], t))
  }

  /** `Contains` agrees with the positional definition of a substring. */
  lemma {:induction false} ContainsIffOccurs(s: string, t: string)
    ensures Contains(s, t) <==> exists i :: OccursAt(s, t, i)
    decreases |s|
  {
    if Contains(s, t) {
      if IsPrefix(t, s) {
        assert OccursAt(s, t, 0);
      } else {
        ContainsIffOccurs(s[1..], t);
        var i :| OccursAt(s[1..], t, i);
        assert s[1..][i..i + |t|] == s[i + 1..i + 1 + |t|];
        assert OccursAt(s, t, i + 1);
      }
    }
    if exists i :: OccursAt(s, t, i) {
      var i :| OccursAt(s, t, i);
      if i > 0 {
        assert s[1..][i - 1..i - 1 + |t|] == s[i..i + |t|];
        assert OccursAt(s[1..], t, i - 1);
        ContainsIffOccurs(s[1..], t);
      } else {
        assert IsPrefix(t, s);
      }
    }
  }

  /** Every string contains the empty string. */
  lemma EmptyIsContained(s: string)
    ensures Contains(s, "")
  {
    assert IsPrefix("", s);
  }

  /** Whatever is glued around `t` still contains `t`. */
  lemma {:induction false} ContainsInfix(u: string, t: string, v: string)
    ensures Contains(u + t + v, t)
  {
    ContainsIffOccurs(u + t + v, t);
    assert (u + t + v)[|u|..|u| + |t|] == t;
    assert OccursAt(u + t + v, t, |u|);
  }

  /** .NET `Char.IsWhiteSpace`: the Unicode space, line and paragraph
      separators plus the control characters U+0009..U+000D and U+0085. */
  predicate IsWhiteSpace(c: char) {
    || c == ' ' || ('\t' <= c <= '\r') || c == '\U{85}' || c == '\U{A0}'
    || c == '\U{1680}' || ('\U{2000}' <= c <= '\U{200A}') || c == '\U{2028}'
    || c == '\U{2029}' || c == '\U{202F}' || c == '\U{205F}' || c == '\U{3000}'
  }

  /** `String.IsNullOrWhiteSpace`; a missing (null) configuration value is
      represented by the empty string, which is blank. */
  predicate IsBlank(s: string) {
    forall i :: 0 <= i < |s| ==> IsWhiteSpace(s[i])
  }

  /** Inverse of `Split`: the pieces glued back together with the separator. */
  function Join(parts: seq<string>, c: char): string {
    if |parts| == 0 then ""
    else if |parts| == 1 then parts[0]
    else parts[0] + [c] + Join(parts[1..], c)
  }

  /** `String.Split(c)`: the maximal separator-free pieces, in order, empty
      pieces included (so the result is never empty). */
  function Split(s: string, c: char): (r: seq<string>)
    ensures |r| >= 1
    ensures forall i :: 0 <= i < |r| ==> c !in r[i]
    ensures |r| == 1 <==> c !in s
    decreases |s|
  {
    if |s| == 0 then [""]
    else
      var rest := Split(s[1..], c);
      if s[0] == c then [""] + rest
      else [[s[0]] + rest[0]] + rest[1..]
  }

  /** Splitting and joining again gives back the original string. */
  lemma {:induction false} JoinSplit(s: string, c: char)
    ensures Join(Split(s, c), c) == s
    decreases |s|
  {
    if |s| > 0 {
      JoinSplit(s[1..], c);
      var rest := Split(s[1..], c);
      if s[0] == c {
        assert s == [c] + s[1..];
      } else {
        var r := Split(s, c);
        assert r[1..] == rest[1..];
        if |rest| == 1 {
          assert s == [s[0]] + rest[0];
        } else {
          assert s == [s[0]] + rest[0] + [c] + Join(rest[1..], c);
        }
      }
    }
  }

  /** A separator-free string splits into itself. */
  lemma {:induction false} SplitNoSeparator(p: string, c: char)
    requires c !in p
    ensures Split(p, c) == [p]
    decreases |p|
  {
    if |p| > 0 {
      assert c !in p[1..];
      SplitNoSeparator(p[1..], c);
      assert [p[0]] + p[1..] == p;
    }
  }

  /** A separator-free piece followed by the separator splits off as one piece. */
  lemma {:induction false} SplitPieceThenSeparator(p: string, c: char, s: string)
    requires c !in p
    ensures Split(p + [c] + s, c) == [p] + Split(s, c)
    decreases |p|
  {
    if |p| == 0 {
      assert p + [c] + s == [c] + s;
      assert ([c] + s)[1..] == s;
    } else {
      assert c !in p[1..];
      SplitPieceThenSeparator(p[1..], c, s);
      assert (p + [c] + s)[1..] == p[1..] + [c] + s;
      assert [p[0]] + p[1..] == p;
    }
  }

  /** Joining separator-free pieces and splitting again gives back the pieces:
      together with `JoinSplit`, `Split` is a bijection onto such sequences. */
  lemma {:induction false} SplitJoin(parts: seq<string>, c: char)
    requires |parts| >= 1
    requires forall i :: 0 <= i < |parts| ==> c !in parts[i]
    ensures Split(Join(parts, c), c) == parts
    decreases |parts|
  {
    if |parts| == 1 {
      SplitNoSeparator(parts[0], c);
    } else {
      SplitJoin(parts[1..], c);
      SplitPieceThenSeparator(parts[0], c, Join(parts[1..], c));
      assert [parts[0]] + parts[1..] == parts;
    }
  }

  /** No two adjacent '>' characters. */
  predicate NoChevrons(s: string) {
    forall i :: 0 <= i < |s| - 1 ==> !(s[i] == '>' && s[i + 1] == '>')
  }

  /** `String.Replace(">>", "-")`: a left-to-right scan replacing
      non-overlapping occurrences. */
  function ReplaceChevrons(s: string): (r: string)
    ensures NoChevrons(r)
    ensures |s| > 0 ==> |r| > 0 && r[0] == (if |s| >= 2 && s[0] == '>' && s[1] == '>' then '-' else s[0])
    ensures |s| == 0 ==> r == ""
    decreases |s|
  {
    if |s| < 2 then s
    else if s[0] == '>' && s[1] == '>' then "-" + ReplaceChevrons(s[2..])
    else [s[0]] + ReplaceChevrons(s[1..])
  }

  /** The first ">>" becomes '-', the text before it is kept, and the scan
      goes on after it. With `ReplaceChevronsIdentity` this fixes the result
      of every input: split it at its first ">>". */
  lemma {:induction false} ReplaceChevronsFirst(a: string, b: string)
    requires NoChevrons(a) && (a == [] || a[|a| - 1] != '>')
    ensures ReplaceChevrons(a + ">>" + b) == a + "-" + ReplaceChevrons(b)
    decreases |a|
  {
    var s := a + ">>" + b;
    if a == [] {
      assert s == ">>" + b;
      assert s[2..] == b;
    } else {
      assert s[0] == a[0];
      assert !(s[0] == '>' && s[1] == '>') by {
        if |a| >= 2 {
          assert s[1] == a[1];
          assert !(a[0] == '>' && a[1] == '>');
        } else {
          assert a[0] == a[|a| - 1];
        }
      }
      assert s[1..] == a[1..] + ">>" + b;
      assert NoChevrons(a[1..]);
      ReplaceChevronsFirst(a[1..], b);
      assert [a[0]] + a[1..] == a;
    }
  }

  /** A template without ">>" is left unchanged. */
  lemma {:induction false} ReplaceChevronsIdentity(s: string)
    requires NoChevrons(s)
    ensures ReplaceChevrons(s) == s
    decreases |s|
  {
    if |s| >= 2 {
      assert !(s[0] == '>' && s[1] == '>');
      assert NoChevrons(s[1..]);
      ReplaceChevronsIdentity(s[1..]);
      assert [s[0]] + s[1..] == s;
    }
  }

  /** Each ">>" shortens the text by one: the result is never longer. */
  lemma {:induction false} ReplaceChevronsLength(s: string)
    ensures |ReplaceChevrons(s)| <= |s|
    ensures |ReplaceChevrons(s)| < |s| <==> !NoChevrons(s)
    decreases |s|
  {
    if |s| >= 2 {
      if s[0] == '>' && s[1] == '>' {
        ReplaceChevronsLength(s[2..]);
      } else {
        ReplaceChevronsLength(s[1..]);
        if !NoChevrons(s[1..]) {
          var i :| 0 <= i < |s[1..]| - 1 && s[1..][i] == '>' && s[1..][i + 1] == '>';
          assert s[i + 1] == '>' && s[i + 2] == '>';
        }
        if !NoChevrons(s) {
          var i :| 0 <= i < |s| - 1 && s[i] == '>' && s[i + 1] == '>';
          assert i != 0;
          assert s[1..][i - 1] == '>' && s[1..][i] == '>';
        }
      }
    }
  }
}
